=== FILE: README.md ===
# Crater surface evolution: a Dafny model of the cratering kernel

This project models the core of `crater_functions.py`, the cratering code of a
landscape-evolution model for Mars. Four pieces of it are modelled:

- `weights`: a roulette-wheel choice of an integer crater diameter. Each
  diameter D carries the weight 1/D².
- `crater_depth`: the morphometry kernel. It adds the elevation change of one
  crater to every node of an elevation field. There is a bowl inside the crater
  radius and an ejecta blanket outside it. When there is no rim, only the inner
  90% of the radius is excavated.
- `crater_production_function_inverse`: a bracket-refining search on
  log10 diameters. It finds the diameter whose cumulative crater frequency
  matches a target.
- `generate_CSFD_from_production_function`: a marked Poisson process over
  geological time. It turns uniform draws into a sequence of crater diameters.

Modules:

| file | module | models |
|---|---|---|
| wrappers.dfy | `Wrappers` | `Option`, `Result` and `Fault`, the exceptions the code can raise |
| numerics.dfy | `Numerics` | the uninterpreted maths (`pow`, `log10`, `ln`, `interp`), sums, and a NaN-aware value `Num` for `np.average` |
| weights.dfy | `Weights` | `weights` |
| morphometry.dfy | `Morphometry` | `crater_depth` |
| inverse.dfy | `ProductionInverse` | `crater_production_function_inverse`, with numpy's `linspace` and `searchsorted` |
| csfd.dfy | `Csfd` | `generate_CSFD_from_production_function` |

Non-integer powers, logarithms and `np.interp` are fields of a `Maths` value.
The model uses none of their numerical behaviour. The one fact it needs is
`PowPositive`: a positive base raised to any power is positive. Properties
that depend on this fact take it as a precondition.

Every random draw is an explicit input:

- `r` for `weights`;
- `noise` for the lognormal `Z_noise` in `crater_depth`;
- a finite sequence `draws` for the generator.

Exceptions become `Result.Failure` values:

- `ZeroDivision`: `0 ** -2.0`, or a zero divisor in the formula for the
  exponent n.
- `IndexOutOfRange`: numpy fancy indexing past the end of an array.
- `NonPositiveDiameter`: a crater diameter that is zero or negative.
- `DrawsExhausted`: the finite stream of draws ran out before the loop stopped.

Behaviour of the code that the model keeps:

- A zero-width time interval such as `[4.5, 4.5]` yields at least one crater:
  the loop guard `t <= time_interval[0]` holds on entry. `Csfd.Generate`
  proves that any successful run on such an interval is non-empty.
- A distance array and an elevation field of different lengths are not
  rejected up front:
  - a longer distance array makes numpy's fancy indexing raise IndexError,
    which the model returns as `IndexOutOfRange`;
  - a shorter one is accepted, and the nodes past its end are never indexed
    and keep their elevation.
- The time loop has no iteration cap. The model stops only when the clock
  passes the start time, or reports `DrawsExhausted` when the finite sequence
  of draws runs out first. `Csfd.RunExtends` shows that more draws never
  change a finished run. `Csfd.RunExhausted` shows that a run which ran out of
  draws, and which finishes once given more, had fewer draws than the
  finished run consumes. `Csfd.RunFinishes` shows the converse: when the draws
  carry the loop to its exit, the run succeeds with a crater at each clock
  reading the loop passes through.
- A rate of zero does not hang the loop. numpy's float division gives `+inf`,
  so the clock jumps to infinity and the loop ends after that one crater. The
  model's `Time.PosInfinity` represents this.
- With `rim=True`, the model's `crater_depth` uses the corrected field of the
  finding below, not the NaN-producing field as written (see "## Left out").

## Model

| member | source | states |
|---|---|---|
| Weights.WeightList | crater_functions.py:39-46 | one weight per integer diameter in [minD, maxD), each exactly Kx/D² = 1/D² and positive; empty when minD >= maxD |
| Weights.Select | crater_functions.py:48-52 | the subtract-until-negative loop over rnd = r·Σw returns the first index whose cumulative weight exceeds rnd, and returns None exactly when no cumulative weight exceeds it |
| Weights.WeightedIndex | crater_functions.py:21-52 | ZeroDivision exactly when 0 lies in [minD, maxD); nothing returned for an empty range; otherwise the first index whose prefix sum Σ_{k≤i} 1/(minD+k)² exceeds r·Σ; for a draw in [0, 1) a non-empty range always yields an index |
| Numerics.Average | crater_functions.py:162-163 | np.average of a slice is NaN exactly when the slice is empty |
| Morphometry.RegimeCoefficients | crater_functions.py:128-138 | exactly one coefficient set applies: the simple set (2.54, 0.67 / 1.93, 0.52 / 0.73, 0.11) if and only if Dm <= 7000 m, the complex set (12.20, 0.49 / 0.79, 0.6 / 0.64, 0.13) if and only if Dm > 7000 m |
| Morphometry.Heights | crater_functions.py:130-138 | H1 = 2.54·Dm^0.67, H2 = 1.93·Dm^0.52, m = 0.73·Dm^0.11 for Dm <= 7000 m, and H1 = 12.20·Dm^0.49, H2 = 0.79·Dm^0.6, m = 0.64·Dm^0.13 above; all three positive when powers of positive bases are |
| Morphometry.ShapeOf | crater_functions.py:125-145 | for a positive diameter the shape fails (ZeroDivision) exactly when the divisor H2H1/2 + H1/(m+2) is 0 and otherwise carries the regime's H1, H2 and m, all positive, with n satisfying the formula for n rearranged: (2 - n)·(H2H1/2 + H1/(m+2)) = H2 |
| Morphometry.Gather | crater_functions.py:160-161 | the selected slice of elevations is empty exactly when no node lies on the selected side of the radius |
| Morphometry.ReferenceLevel | crater_functions.py:162-163 | the corrected stand-in for np.average of Z_in and Z_out: the mean (level·count = sum, as np.average gives) of a non-empty slice, and 0 for an empty one, where np.average would give NaN |
| Morphometry.BlendWeightVanishes | crater_functions.py:173-177 | with I = 1, G = min(1 - I, DH_out/H2) is 0 at every node outside the radius, and DH_out there is positive |
| Morphometry.InsideInheritanceCancels | crater_functions.py:164-169 | because E_ref_in = Z_in, an inside node's change DE_in equals DH_in = H2H1 + Z_noise·H1·(2d/Dm)^m |
| Morphometry.OutsideInheritanceCancels | crater_functions.py:165-178 | with I = 1, an outside node's change DE_out equals DH_out = H2·(2d/Dm)^-n, whatever the reference elevations |
| Morphometry.RimField | crater_functions.py:155-179 | the corrected rim=True field: it keeps the field's length; every node within the radius gets z + DH_in, the noisy bowl profile, whatever the reference levels (the inheritance term cancels); nodes past the distance array keep their elevation |
| Morphometry.RimFieldDeltas | crater_functions.py:155-179 | with a rim, every inside node gets the noisy bowl profile, every outside node gets the ejecta profile and is raised, and nodes past the distance array are untouched |
| Morphometry.CraterDepth | crater_functions.py:94-203 | NonPositiveDiameter exactly for diameter <= 0; ZeroDivision exactly when the shape's divisor is 0; IndexOutOfRange exactly when the distance array is longer than the field; any other call (positive diameter, non-zero divisor, distance array no longer than the field) succeeds, and the field keeps its length (the rim=True branch is the corrected field, see "## Left out") |
| Morphometry.RimDeltas | crater_functions.py:125-179 | for the model's `crater_depth` with rim=True (the corrected field): every node receives exactly one change, the bowl profile inside the radius and the positive ejecta profile outside it; the source agrees whenever some node lies within the radius (Morphometry.AsWrittenAgreesWithOccupiedBowl) and is NaN everywhere otherwise |
| Morphometry.NoRimField | crater_functions.py:181-199 | the rim=False field keeps its length; every node within 0.9·radius gets z + H2H1 + H1·(2d/Dm)^m, the bowl profile with a noise factor of 1; every other node, including those past the distance array, keeps its elevation |
| Morphometry.NoRimDeltas | crater_functions.py:181-199 | with rim=False every node farther than 0.9·radius is left exactly unchanged, and every node within it gets H2H1 + H1·(2d/Dm)^m with no noise factor |
| Morphometry.NoRimIgnoresNoise | crater_functions.py:181-199 | with rim=False the result does not depend on the lognormal noise draw |
| Morphometry.RimFieldAsWritten | crater_functions.py:160-179 | the rim=True field computed as the code does, with NaN from the average of an empty slice propagating through G·(E_ref_out - Z_out); the field keeps its length |
| Morphometry.EmptyBowlPoisonsField | crater_functions.py:162-178 | when no node lies within the radius, every node of the as-written field is NaN |
| Morphometry.AsWrittenAgreesWithOccupiedBowl | crater_functions.py:162-178 | when at least one node lies within the radius, the as-written field is finite and equals the corrected field node for node |
| ProductionInverse.Linspace | crater_functions.py:242 | np.linspace gives `num` points that start at `start`, end exactly at `stop`, and are equally spaced by (stop - start)/(num - 1) |
| ProductionInverse.Samples | crater_functions.py:242 | x0 = np.linspace(xrange[1], xrange[0], 9) has nine points |
| ProductionInverse.SamplesLayout | crater_functions.py:242 | the nine samples run from the bracket's large-diameter end (xrange[1]) to its small-diameter end (xrange[0]), consecutive samples 1/8 of the difference apart |
| ProductionInverse.SampleValues | crater_functions.py:243 | y0 has one entry per sample, and entry k is log10 of the cumulative frequency at the diameter 10^x0[k] |
| ProductionInverse.Bisect | crater_functions.py:246 | numpy's binary search over a[lo..hi] returns an insertion point within [lo, hi] |
| ProductionInverse.SearchSorted | crater_functions.py:246 | np.searchsorted returns an insertion point between 0 and the length of the samples |
| ProductionInverse.BisectSplits | crater_functions.py:246 | on sorted samples whose prefix before lo is below the target and whose suffix from hi is at least the target, the binary search returns a split point with the same two properties over the whole sequence |
| ProductionInverse.SearchSortedSplits | crater_functions.py:246 | on sorted samples, np.searchsorted returns the split point: every sample before it is below the target, every sample from it on is at least the target |
| ProductionInverse.Round | crater_functions.py:242-248 | one loop pass fails with IndexError exactly when searchsorted returns 9; y1 is the log cumulative value at the interpolated x; the new bracket is 1/8 as wide (adjacent samples) or equally wide (q = 0 wraps to x0[-1]) |
| ProductionInverse.RoundFailsAboveSamples | crater_functions.py:246-248 | on monotone samples, a pass fails exactly when the target exceeds the log cumulative value at the bracket's small-diameter end |
| ProductionInverse.RoundBelowSamplesSwaps | crater_functions.py:246-248 | on monotone samples, a target at or below the first sample gives q = 0, and x0[[0, -1]] is the old bracket with its ends swapped |
| ProductionInverse.RoundBracketsTarget | crater_functions.py:246-248 | on monotone samples, a target above the first sample and at most the last one makes the pass succeed and narrows the bracket to two adjacent samples whose values straddle the target, at 1/8 of the width |
| ProductionInverse.Refine | crater_functions.py:239-251 | the loop runs at most 100 passes (count > 99) whatever the production function returns; stopping earlier means \|y1 - log_y\| < tol; the bracket never widens |
| ProductionInverse.Advance | crater_functions.py:248-251 | the rest of a loop pass once its round is known: the IndexError is passed on; otherwise count goes up by one, and the loop breaks at convergence or past 99 passes, else continues from the new bracket; same bounds as the whole loop |
| ProductionInverse.Invert | crater_functions.py:212-253 | returns 10^x after 1 to 100 passes, converged if fewer than 100; the final bracket is no wider than log10 of the input range; the diameter is positive when powers of positive bases are; it fails exactly when the refinement loop from the bracket log10(irange) fails |
| ProductionInverse.RoundNarrows | crater_functions.py:242-248 | on an antitone production function, a pass from a well-ordered bracket whose end values straddle the target succeeds, and its next bracket is again well ordered and straddles the target |
| ProductionInverse.RefineCompletes | crater_functions.py:241-251 | the loop succeeds exactly when every pass it runs, up to the one that breaks, succeeds |
| ProductionInverse.AdvanceProceeds | crater_functions.py:241-251 | the rest of a pass succeeds exactly when this pass and every later pass up to the break succeed (the induction over passes behind RefineCompletes) |
| ProductionInverse.LoopCompletes | crater_functions.py:241-251 | when every pass from a straddling bracket succeeds and straddles again, every pass the loop runs from a straddling bracket succeeds |
| ProductionInverse.LoopProceeds | crater_functions.py:241-251 | after a pass that succeeded with a straddling bracket, when every pass keeps the target inside, every later pass up to the break succeeds |
| ProductionInverse.AntitoneNarrows | crater_functions.py:242-248 | on an antitone production function, every pass from any straddling bracket succeeds and hands on a straddling bracket |
| ProductionInverse.RefineSucceeds | crater_functions.py:241-251 | on an antitone production function the loop never raises IndexError when it starts from a well-ordered bracket whose end values straddle the target |
| ProductionInverse.InvertSucceeds | crater_functions.py:212-253 | on an antitone production function the inverse succeeds whenever log10 of the target lies strictly above the log cumulative value at the large end of the range and at most the value at the small end |
| Csfd.Setup | crater_functions.py:301-314 | without a size interval the range is [cell_size, pf.range[1]] with no warning; with one, the range is used as given and the extrapolation warning is raised exactly when it leaves the calibrated range; N holds the cumulative frequencies at 1 km and at both ends, and N1_ratio·N[0] = N[1] |
| Csfd.Target | crater_functions.py:322-323 | a draw u in [0, 1] maps to y = u·(N[1]-N[2]) + N[2], between N[2] and N[1] in either order, with u = 0 giving N[2] and u = 1 giving N[1] |
| Csfd.TargetCovers | crater_functions.py:322-323 | every frequency between N[2] and N[1] is the target of some draw in [0, 1] |
| Csfd.InvertDiameter | crater_functions.py:324 | the diameter used by the generator is the inverse's 10^x, it exists exactly when the inverse succeeds, and it is positive when powers of positive bases are |
| Csfd.CraterDiameter | crater_functions.py:322-324 | the diameter drawn from u by inverting its target is positive whenever every diameter the inverse returns is |
| Csfd.LoopPass | crater_functions.py:320-338 | one loop pass fails exactly when the inverse fails on the target of the pass's first draw; on success its diameter is that inverse's, and the clock moves by one tick (+inf for a zero rate, else by dt) computed from the pass's last draw |
| Csfd.Run | crater_functions.py:316-341 | one diameter per loop pass, each generated at a clock reading not past time_interval[0]; the loop exits only once the clock is past it; an empty result when the clock starts past it; otherwise the first crater is at the starting clock; one draw per crater, two with Poisson intervals; diameters positive when the inverse's are; a failure is either the draws running out or an inverse failing on one of the draws |
| Csfd.DiameterRule | crater_functions.py:320-324 | crater i is the inverse of the target of draw number i (2i with Poisson intervals) |
| Csfd.RunExtends | crater_functions.py:320-341 | appending draws to those of a finished run leaves the run unchanged |
| Csfd.RunExhausted | crater_functions.py:320-341 | a run that ran out of draws, and that finishes when more draws are appended, had fewer draws than the finished run consumes: running out of draws only cuts short a loop that had not stopped |
| Csfd.RunLast | crater_functions.py:320-338 | a run entered at or before time_interval[0] has at least one crater, and it ends on the clock one tick after its final crater, +inf when the rate there is zero, else that crater's time plus dt from the draw after its diameter draw |
| Csfd.RunFinishes | crater_functions.py:320-338 | conversely, whenever the draws drive the loop to its exit (the first crater at the entry clock; every crater's clock reading at most time_interval[0]; every diameter draw inverting; each tick landing on the next reading; the tick after the last reading past time_interval[0]; enough draws for every pass), the run succeeds and records a crater at exactly those clock readings |
| Csfd.ClockRule | crater_functions.py:326-338 | between consecutive craters the rate lam is non-zero and the clock advances by one tick, -ln(u2)/lam (Poisson) or 1/lam (mean interval), u2 being the draw after the crater's diameter draw |
| Csfd.MeanIntervalSpacing | crater_functions.py:329-338 | with poisson_intervals=False the rate lam at every crater but the last is non-zero, and t advances by exactly 1/lam per crater |
| Csfd.MeanIntervalIncreasing | crater_functions.py:329-338 | with poisson_intervals=False and positive phi, N1_ratio and area, the clock strictly increases from one crater to the next |
| Csfd.GeneratorProcess | crater_functions.py:301-324 | the process the generator runs sets its plan up from the production function and the size interval, and inverts at the default tolerance over the plan's range; its diameters are positive when powers of positive bases are |
| Csfd.Generate | crater_functions.py:256-341 | the output is the diameters of the time loop run from time_interval[1] up to time_interval[0] with the generator's process, and it fails exactly when that run fails; empty when time_interval[1] > time_interval[0]; at least one crater otherwise, if the run finishes; no more craters than draws; every diameter positive when powers of positive bases are |

## Left out

- Floating-point arithmetic. The model uses exact reals. Rounding, overflow and
  infinities are not modelled. The exceptions are the NaN of an empty average
  and the `+inf` step of a zero rate, which are written out explicitly.
- Non-integer powers, `log10`, `np.log`, `math.exp` and `np.interp`. These are
  uninterpreted. No accuracy or convergence of the inverse is claimed beyond
  the stopping test itself.
- The exterior exponent's literature range (about 3 to 3.5) and the exact
  volume balance of bowl and rim. Both depend on the numeric values of the
  power laws, which are not modelled.
- The noise parameters `ejecta_noise`, `noise1` and `noise2`. These only set the
  sigma of the lognormal draw, and that draw is an input.
- The random generators `rn_gen`. They are re-seeded in every function, which
  makes every function see the same first draws. The model takes the draws as
  inputs, so this re-seeding is not represented.
- The craterstats production and chronology functions, and the loading of
  their configuration. These are an external library. `ProductionFn` carries
  the cumulative frequency and the calibrated range, and `phi` is a parameter.
- `Csfd.Setup`: N1_ratio = N[1]/N[0] is taken with the precondition
  N(1 km) ≠ 0. numpy would instead give inf or NaN, which is not modelled.
- `ProductionInverse.Invert`: a production function that returns non-positive
  frequencies would drive numpy's `log10` to NaN or `-inf`. Here `log10` is
  uninterpreted, so that case is not distinguished.
- `Csfd.Run`: the `+inf` or NaN that `np.log(0)` gives is not modelled, because
  `ln` is uninterpreted. A negative rate makes the clock run backwards and the
  code loop forever. The model reports `DrawsExhausted` once the draws run out.
- Morphometry.CraterDepth: with rim=True it returns the corrected field
  `RimField`, not the field as written (`RimFieldAsWritten`). When no node lies
  within the radius the source sets every node to NaN. The model instead
  returns the finite bowl-and-ejecta field, as recorded under "## Findings".
- Morphometry.CraterDepth: with rim=False and a distance array longer than the
  field, the out-of-range entries may all lie beyond 0.9·radius. In that case
  the source first adds the bowl to the inside nodes in place (line 196). Only
  then does `[out_idx] += 0` raise IndexError (line 199). The model
  returns `IndexOutOfRange` and does not represent that partial update.
- Morphometry.CraterDepth: the source fails differently for the two bad
  diameters. At 0 it raises ZeroDivisionError in the formula for n. A negative
  diameter gives complex powers and fails when it is added to the float field.
  Both are folded into `NonPositiveDiameter`.
- Landlab grid construction and distance queries. The distance array is an
  input.
- `make_noisy_surface`, `add_craters1`, `add_craters2` and `central_crater`.
  These orchestrate Landlab and the random generator.
- `plot_topo_profile` and `plot_grid`, which are plotting.
- `warnings.warn` itself and the progress `print`s. The extrapolation
  condition is kept as the `extrapolated` flag of `Csfd.Plan`.

## Findings

| source | as written | input that shows it | evidently intended | confidence | as-written member | corrected member |
|---|---|---|---|---|---|---|
| crater_functions.py:162-178 | with rim=True, `avgin = np.average(Z_in)` is NaN when no node lies within the radius; `G*(E_ref_out - Z_out)` is then `0*NaN = NaN`, so every outside node, i.e. the whole field, becomes NaN | a 1 km crater (radius 500 m) on a grid with 1 km node spacing, centred in the middle of a cell: every node is about 707 m or more away | with I = 1 the blend weight G is 0 and the outside change is DH_out alone; an empty inside set should not poison the field | medium; not executed | Morphometry.RimFieldAsWritten (shown by Morphometry.EmptyBowlPoisonsField) | Morphometry.RimField (proved by Morphometry.RimFieldDeltas; agreement by Morphometry.AsWrittenAgreesWithOccupiedBowl) |

=== FILE: csfd.dfy ===
/** Crater size-frequency generation (`generate_CSFD_from_production_function`).

    Time runs from `time_interval[1]` up to `time_interval[0]` (Ga before
    present). Each pass of the loop turns a uniform draw into a target
    cumulative frequency, inverts it to a diameter, and advances the clock
    by an exponential interarrival time (or by its mean) at the rate
    phi(t) * N1_ratio * area. The random draws are the sequence `draws`,
    consumed in order; the chronology function is the parameter `phi`. */
module Csfd {
  import opened Wrappers
  import opened Numerics
  import opened ProductionInverse

  /** The tolerance the generator leaves at the inverse's default. */
  const DefaultTol: real := 0.000001

  /** A reading of the simulation clock. Dividing a positive float by a
      zero rate gives +inf in numpy, so the clock can jump to infinity. */
  datatype Time = Finite(t: real) | PosInfinity {
    predicate After(bound: real) {
      PosInfinity? || bound < t
    }
  }

  /** Everything fixed before the time loop: the diameter range, the
      cumulative frequencies N = [N(1 km), N(min), N(max)], N1_ratio and
      whether the range lies outside the calibrated one (the warning). */
  datatype Plan = Plan(range: (real, real), n0: real, n1: real, n2: real, ratio: real, extrapolated: bool)

  /** The set-up before the loop. Without a size interval the range runs
      from the cell size to the top of the calibrated range. */
  function Setup(pf: ProductionFn, sizeInterval: Option<(real, real)>, cellSize: real): (p: Plan)
    requires pf.cumulative(1.0) != 0.0
    ensures sizeInterval.None? ==> p.range == (cellSize, pf.maxD) && !p.extrapolated
    ensures sizeInterval.Some? ==> p.range == sizeInterval.value
    ensures sizeInterval.Some? ==>
              (p.extrapolated <==> sizeInterval.value.0 < pf.minD || pf.maxD < sizeInterval.value.1)
    ensures p.n0 == pf.cumulative(1.0)
    ensures p.n1 == pf.cumulative(p.range.0) && p.n2 == pf.cumulative(p.range.1)
    ensures p.ratio * p.n0 == p.n1
  {
    var range := if sizeInterval.None? then (cellSize, pf.maxD) else sizeInterval.value;
    var extrapolated := sizeInterval.Some? && (range.0 < pf.minD || pf.maxD < range.1);
    var n0 := pf.cumulative(1.0);
    var n1 := pf.cumulative(range.0);
    var n2 := pf.cumulative(range.1);
    Plan(range, n0, n1, n2, n1 / n0, extrapolated)
  }

  /** y = u * (N[1] - N[2]) + N[2]: a draw in [0, 1] lands between the
      cumulative frequencies of the two ends of the range, 0 on N[2] and
      1 on N[1]. */
  function Target(u: real, n1: real, n2: real): (y: real)
    ensures 0.0 <= u <= 1.0 && n2 <= n1 ==> n2 <= y <= n1
    ensures 0.0 <= u <= 1.0 && n1 <= n2 ==> n1 <= y <= n2
    ensures u == 0.0 ==> y == n2
    ensures u == 1.0 ==> y == n1
  {
    var y := u * (n1 - n2) + n2;
    TargetWithin(u, n1, n2, y);
    y
  }

  /** The bounds of `Target`, proved apart from it. */
  lemma TargetWithin(u: real, n1: real, n2: real, y: real)
    requires y == u * (n1 - n2) + n2
    ensures 0.0 <= u <= 1.0 && n2 <= n1 ==> n2 <= y <= n1
    ensures 0.0 <= u <= 1.0 && n1 <= n2 ==> n1 <= y <= n2
    ensures u == 0.0 ==> y == n2
    ensures u == 1.0 ==> y == n1
  {
    var w := n1 - n2;
    if 0.0 <= u <= 1.0 {
      assert w - u * w == (1.0 - u) * w;
      if 0.0 <= w {
        assert 0.0 <= u * w <= w;
      } else {
        assert w <= u * w <= 0.0;
      }
    }
  }

  /** Conversely every frequency between the two ends is the target of
      some draw in [0, 1]. */
  lemma TargetCovers(y: real, n1: real, n2: real)
    requires n1 != n2
    requires n2 <= y <= n1 || n1 <= y <= n2
    ensures exists u :: 0.0 <= u <= 1.0 && Target(u, n1, n2) == y
  {
    var u := (y - n2) / (n1 - n2);
    assert Target(u, n1, n2) == y;
    if n2 < n1 {
      assert 0.0 <= u <= 1.0;
    } else {
      assert 0.0 <= u <= 1.0;
    }
  }

  /** The diameter `crater_production_function_inverse` returns for the
      target `y` over the plan's range, at the default tolerance. */
  function InvertDiameter(maths: Maths, pf: ProductionFn, range: (real, real), y: real): (r: Result<real>)
    ensures r.Success? <==> Invert(maths, pf, range, y, DefaultTol).Success?
    ensures r.Success? ==> r.value == Invert(maths, pf, range, y, DefaultTol).value.diameter
    ensures r.Success? && PowPositive(maths) ==> 0.0 < r.value
  {
    match Invert(maths, pf, range, y, DefaultTol)
    case Failure(e) => Failure(e)
    case Success(inv) => Success(inv.diameter)
  }

  /** The fixed ingredients of the time loop: the inverse as the loop
      calls it, the natural logarithm, the chronology function phi, the
      plan, the area and the interval mode. */
  datatype Process = Process(
    invert: real -> Result<real>, ln: real -> real, phi: real -> real,
    plan: Plan, area: real, poisson: bool)

  /** Every diameter the inverse hands back is positive. */
  ghost predicate PositiveDiameters(p: Process) {
    forall y :: p.invert(y).Success? ==> 0.0 < p.invert(y).value
  }

  /** lam = phi(t) * N1_ratio * Area */
  function Rate(p: Process, t: real): real {
    p.phi(t) * p.plan.ratio * p.area
  }

  /** Draws consumed per crater: one for the diameter, one more for a
      Poisson interarrival time. */
  function Stride(p: Process): nat {
    if p.poisson then 2 else 1
  }

  /** dt: the interarrival time for the rate `lam`, drawn from the
      exponential distribution by -ln(u2)/lam, or its mean 1/lam. */
  function Interval(p: Process, lam: real, u2: real): real
    requires lam != 0.0
  {
    if p.poisson then -p.ln(u2) / lam else 1.0 / lam
  }

  /** The clock after a pass at `t` whose interval draw is `u2`: +inf
      when the rate at `t` is zero, else `t` plus the interarrival time. */
  function Tick(p: Process, t: real, u2: real): Time {
    var lam := Rate(p, t);
    if lam == 0.0 then PosInfinity else Finite(t + Interval(p, lam, u2))
  }

  /** Draws consumed by `n` craters. */
  function Consumed(p: Process, n: nat): nat {
    if p.poisson then 2 * n else n
  }

  /** The first half of a pass: the diameter whose cumulative frequency is
      the target of the draw `u`. */
  function CraterDiameter(p: Process, u: real): (r: Result<real>)
    ensures r.Success? && PositiveDiameters(p) ==> 0.0 < r.value
  {
    p.invert(Target(u, p.plan.n1, p.plan.n2))
  }

  /** Some draw has a target the inverse fails on. */
  ghost predicate FailingDraw(p: Process, draws: seq<real>) {
    exists i :: 0 <= i < |draws| && CraterDiameter(p, draws[i]).Failure?
  }

  /** The diameters generated, the clock reading at which each was
      generated, and the clock reading that ended the loop. */
  datatype Trace = Trace(diameters: seq<real>, times: seq<real>, last: Time)

  /** What one pass of the loop yields: the crater's diameter and the
      clock after the step. */
  datatype Pass = Pass(diameter: real, next: Time)

  /** One pass of the loop at clock `t`, consuming the first Stride(p)
      draws. A zero rate makes the step infinite. */
  function LoopPass(p: Process, t: real, draws: seq<real>): (r: Result<Pass>)
    requires Stride(p) <= |draws|
    ensures r.Success? ==> CraterDiameter(p, draws[0]) == Success(r.value.diameter)
    ensures r.Success? ==> r.value.next == Tick(p, t, draws[Stride(p) - 1])
    ensures r.Failure? <==> CraterDiameter(p, draws[0]).Failure?
  {
    match CraterDiameter(p, draws[0])
    case Failure(e) => Failure(e)
    case Success(diameter) => Success(Pass(diameter, Tick(p, t, draws[Stride(p) - 1])))
  }

  /** The time loop entered at clock `t`. One crater per pass; the loop
      exits only once the clock is past `tStart`, and every crater was
      generated at a time not past it. Running out of draws stands for a
      loop that has not stopped yet. */
  function Run(p: Process, t: real, tStart: real, draws: seq<real>): (r: Result<Trace>)
    ensures tStart < t ==> r == Success(Trace([], [], Finite(t)))
    ensures t <= tStart && r.Success? ==> 0 < |r.value.times| && r.value.times[0] == t
    ensures r.Success? ==> |r.value.diameters| == |r.value.times|
    ensures r.Success? ==> forall i :: 0 <= i < |r.value.times| ==> r.value.times[i] <= tStart
    ensures r.Success? ==> r.value.last.After(tStart)
    ensures r.Success? ==> Consumed(p, |r.value.diameters|) <= |draws|
    ensures r.Success? && PositiveDiameters(p) ==>
              forall i :: 0 <= i < |r.value.diameters| ==> 0.0 < r.value.diameters[i]
    ensures r.Failure? ==>
              || r.error == DrawsExhausted
              || FailingDraw(p, draws)
    decreases |draws|
  {
    if tStart < t then Success(Trace([], [], Finite(t)))
    else if |draws| < Stride(p) then Failure(DrawsExhausted)
    else
      match LoopPass(p, t, draws)
      case Failure(e) => Failure(e)
      case Success(pass) =>
        match pass.next
        case PosInfinity => Success(Trace([pass.diameter], [t], PosInfinity))
        case Finite(next) =>
          var rest := draws[Stride(p)..];
          match Run(p, next, tStart, rest)
          case Failure(e) =>
            assert forall j :: 0 <= j < |rest| ==> rest[j] == draws[j + Stride(p)];
            Failure(e)
          case Success(tail) =>
            var times := [t] + tail.times;
            var diameters := [pass.diameter] + tail.diameters;
            assert forall i :: 1 <= i < |times| ==> times[i] == tail.times[i - 1];
            assert forall i :: 1 <= i < |diameters| ==> diameters[i] == tail.diameters[i - 1];
            Success(Trace(diameters, times, tail.last))
  }

  /** More draws than a finished run needs change nothing: the run reads
      only the draws of the passes it makes, so `DrawsExhausted` only ever
      stands for a loop that has not stopped yet. */
  lemma {:induction false} RunExtends(p: Process, t: real, tStart: real, draws: seq<real>, more: seq<real>)
    requires Run(p, t, tStart, draws).Success?
    ensures Run(p, t, tStart, draws + more) == Run(p, t, tStart, draws)
    decreases |draws|
  {
    if t <= tStart {
      var all := draws + more;
      assert all[0] == draws[0] && all[Stride(p) - 1] == draws[Stride(p) - 1];
      assert LoopPass(p, t, all) == LoopPass(p, t, draws);
      if LoopPass(p, t, draws).value.next.Finite? {
        var next := LoopPass(p, t, draws).value.next.t;
        assert all[Stride(p)..] == draws[Stride(p)..] + more;
        RunExtends(p, next, tStart, draws[Stride(p)..], more);
      }
    }
  }

  /** A successful run whose first pass leaves a finite clock at most
      `tStart` is that pass's crater followed by the run from the new clock
      on the remaining draws. */
  lemma RunUnfolds(p: Process, t: real, tStart: real, draws: seq<real>)
    requires t <= tStart && Run(p, t, tStart, draws).Success?
    requires LoopPass(p, t, draws).value.next.Finite?
    ensures var pass := LoopPass(p, t, draws).value;
            var tail := Run(p, pass.next.t, tStart, draws[Stride(p)..]);
            && tail.Success?
            && Run(p, t, tStart, draws).value
               == Trace([pass.diameter] + tail.value.diameters, [t] + tail.value.times, tail.value.last)
  {
  }

  /** A run that ended by running out of draws, and that a longer supply
      of draws lets finish, had fewer draws than the finished run
      consumes: running out of draws only ever cuts a loop short. */
  lemma {:induction false} RunExhausted(p: Process, t: real, tStart: real, draws: seq<real>, more: seq<real>)
    requires Run(p, t, tStart, draws) == Failure(DrawsExhausted)
    requires Run(p, t, tStart, draws + more).Success?
    ensures |draws| < Consumed(p, |Run(p, t, tStart, draws + more).value.diameters|)
    decreases |draws|
  {
    var all := draws + more;
    if |draws| < Stride(p) {
      assert t <= tStart;
      assert 0 < |Run(p, t, tStart, all).value.diameters|;
    } else {
      assert all[0] == draws[0] && all[Stride(p) - 1] == draws[Stride(p) - 1];
      assert LoopPass(p, t, all) == LoopPass(p, t, draws);
      var next := LoopPass(p, t, draws).value.next.t;
      assert all[Stride(p)..] == draws[Stride(p)..] + more;
      RunExhausted(p, next, tStart, draws[Stride(p)..], more);
    }
  }

  /** A run entered at or before `tStart` ends on the clock step taken
      after its final crater: +inf when the rate there is zero, and
      otherwise the final crater's time plus the interarrival time drawn
      for that rate from the draw following the final crater's diameter
      draw. */
  lemma {:induction false} RunLast(p: Process, t: real, tStart: real, draws: seq<real>)
    requires t <= tStart
    requires Run(p, t, tStart, draws).Success?
    ensures var tr := Run(p, t, tStart, draws).value;
            var n := |tr.times|;
            && 0 < n
            && StepDraw(p, n - 1) < |draws|
            && tr.last == Tick(p, tr.times[n - 1], draws[StepDraw(p, n - 1)])
    decreases |draws|
  {
    var tr := Run(p, t, tStart, draws).value;
    var next := LoopPass(p, t, draws).value.next;
    if next.Finite? && next.t <= tStart {
      var rest := draws[Stride(p)..];
      RunUnfolds(p, t, tStart, draws);
      var tail := Run(p, next.t, tStart, rest).value;
      RunLast(p, next.t, tStart, rest);
      var m := |tail.times|;
      assert tr.times[m] == tail.times[m - 1];
      assert rest[StepDraw(p, m - 1)] == draws[StepDraw(p, m)];
    }
  }

  /** The process `generate_CSFD_from_production_function` runs: the
      inverse over the plan's range at the default tolerance, with the
      plan set up from the production function and the size interval. */
  function GeneratorProcess(
    maths: Maths, pf: ProductionFn, phi: real -> real,
    sizeInterval: Option<(real, real)>, area: real, cellSize: real, poisson: bool)
    : (p: Process)
    requires pf.cumulative(1.0) != 0.0
    ensures p.plan == Setup(pf, sizeInterval, cellSize)
    ensures forall y :: p.invert(y) == InvertDiameter(maths, pf, p.plan.range, y)
    ensures PowPositive(maths) ==> PositiveDiameters(p)
  {
    var plan := Setup(pf, sizeInterval, cellSize);
    Process(y => InvertDiameter(maths, pf, plan.range, y), maths.ln, phi, plan, area, poisson)
  }

  /** `generate_CSFD_from_production_function(time_interval, size_interval,
      domain_area, cell_size, poisson_intervals)`. */
  function Generate(
    maths: Maths, pf: ProductionFn, phi: real -> real,
    timeInterval: (real, real), sizeInterval: Option<(real, real)>,
    area: real, cellSize: real, poisson: bool, draws: seq<real>)
    : (r: Result<seq<real>>)
    requires pf.cumulative(1.0) != 0.0
    ensures timeInterval.0 < timeInterval.1 ==> r == Success([])
    ensures timeInterval.1 <= timeInterval.0 && r.Success? ==> 0 < |r.value|
    ensures r.Success? ==> |r.value| <= |draws|
    ensures r.Success? && PowPositive(maths) ==> forall i :: 0 <= i < |r.value| ==> 0.0 < r.value[i]
    ensures var run := Run(GeneratorProcess(maths, pf, phi, sizeInterval, area, cellSize, poisson),
                           timeInterval.1, timeInterval.0, draws);
            && (r.Failure? <==> run.Failure?)
            && (r.Success? ==> r.value == run.value.diameters)
  {
    var p := GeneratorProcess(maths, pf, phi, sizeInterval, area, cellSize, poisson);
    match Run(p, timeInterval.1, timeInterval.0, draws)
    case Failure(e) => Failure(e)
    case Success(trace) => Success(trace.diameters)
  }

  /** The draw that sets the clock step after crater `i`. */
  function StepDraw(p: Process, i: nat): nat {
    Consumed(p, i) + Stride(p) - 1
  }

  /** Crater i is the inversion of the target of draw number Consumed(p, i). */
  lemma {:induction false} DiameterAt(p: Process, t: real, tStart: real, draws: seq<real>, i: nat)
    requires Run(p, t, tStart, draws).Success?
    requires i < |Run(p, t, tStart, draws).value.diameters|
    ensures Consumed(p, i) < |draws|
    ensures CraterDiameter(p, draws[Consumed(p, i)]) == Success(Run(p, t, tStart, draws).value.diameters[i])
    decreases i
  {
    if 0 < i {
      RunUnfolds(p, t, tStart, draws);
      var rest := draws[Stride(p)..];
      var next := LoopPass(p, t, draws).value.next.t;
      DiameterAt(p, next, tStart, rest, i - 1);
      assert rest[Consumed(p, i - 1)] == draws[Consumed(p, i)];
    }
  }

  /** Every crater is the inversion of the target of its diameter draw. */
  lemma DiameterRule(p: Process, t: real, tStart: real, draws: seq<real>)
    requires Run(p, t, tStart, draws).Success?
    ensures var ds := Run(p, t, tStart, draws).value.diameters;
            forall i :: 0 <= i < |ds| ==>
              Consumed(p, i) < |draws| && CraterDiameter(p, draws[Consumed(p, i)]) == Success(ds[i])
  {
    var ds := Run(p, t, tStart, draws).value.diameters;
    forall i | 0 <= i < |ds|
      ensures Consumed(p, i) < |draws| && CraterDiameter(p, draws[Consumed(p, i)]) == Success(ds[i])
    {
      DiameterAt(p, t, tStart, draws, i);
    }
  }

  /** In a run of more than j + 1 craters, crater j + 1 is crater j of
      the run from the clock after the first pass. */
  lemma RunShift(p: Process, t: real, tStart: real, draws: seq<real>, j: nat)
    requires Run(p, t, tStart, draws).Success?
    requires j + 1 < |Run(p, t, tStart, draws).value.times|
    ensures t <= tStart && LoopPass(p, t, draws).value.next.Finite?
    ensures var tr := Run(p, t, tStart, draws).value;
            var tail := Run(p, LoopPass(p, t, draws).value.next.t, tStart, draws[Stride(p)..]);
            && tail.Success?
            && j < |tail.value.times|
            && tr.times[j + 1] == tail.value.times[j]
            && tr.diameters[j + 1] == tail.value.diameters[j]
  {
    RunUnfolds(p, t, tStart, draws);
  }

  /** Crater i + 1 reads its draws right after those of crater i. */
  lemma ConsumedShift(p: Process, i: nat)
    ensures Consumed(p, i + 1) == Consumed(p, i) + Stride(p)
    ensures StepDraw(p, i + 1) == StepDraw(p, i) + Stride(p)
  {
  }

  /** The clock moves from the first crater to the second by one tick. */
  lemma ClockFirst(p: Process, t: real, tStart: real, draws: seq<real>)
    requires Run(p, t, tStart, draws).Success?
    requires 1 < |Run(p, t, tStart, draws).value.times|
    ensures StepDraw(p, 0) < |draws|
    ensures var ts := Run(p, t, tStart, draws).value.times;
            Tick(p, ts[0], draws[StepDraw(p, 0)]) == Finite(ts[1])
  {
    RunUnfolds(p, t, tStart, draws);
    var next := LoopPass(p, t, draws).value.next.t;
    var ts := Run(p, t, tStart, draws).value.times;
    assert ts[0] == t && ts[1] == next;
  }

  /** The clock advances from crater i to crater i + 1 by one tick: the
      rate at crater i is non-zero, and crater i + 1's time is the
      interarrival time drawn for that rate after it. */
  lemma {:induction false} ClockAt(p: Process, t: real, tStart: real, draws: seq<real>, i: nat)
    requires Run(p, t, tStart, draws).Success?
    requires i + 1 < |Run(p, t, tStart, draws).value.times|
    ensures StepDraw(p, i) < |draws|
    ensures var ts := Run(p, t, tStart, draws).value.times;
            Tick(p, ts[i], draws[StepDraw(p, i)]) == Finite(ts[i + 1])
    decreases i
  {
    if i == 0 {
      ClockFirst(p, t, tStart, draws);
    } else {
      RunShift(p, t, tStart, draws, i - 1);
      RunShift(p, t, tStart, draws, i);
      var rest := draws[Stride(p)..];
      var tail := Run(p, LoopPass(p, t, draws).value.next.t, tStart, rest);
      ClockAt(p, LoopPass(p, t, draws).value.next.t, tStart, rest, i - 1);
      TickShift(p, draws, Run(p, t, tStart, draws).value.times, tail.value.times, i);
    }
  }

  /** The tick from crater i to crater i + 1 is the tick from crater
      i - 1 to crater i of the run after the first pass, whose clock
      readings `tail` are those of `ts` shifted by one. */
  lemma TickShift(p: Process, draws: seq<real>, ts: seq<real>, tail: seq<real>, i: nat)
    requires 0 < i && i + 1 < |ts| && i < |tail|
    requires ts[i] == tail[i - 1] && ts[i + 1] == tail[i]
    requires Stride(p) <= |draws| && StepDraw(p, i - 1) < |draws| - Stride(p)
    requires Tick(p, tail[i - 1], draws[Stride(p)..][StepDraw(p, i - 1)]) == Finite(tail[i])
    ensures StepDraw(p, i) < |draws|
    ensures Tick(p, ts[i], draws[StepDraw(p, i)]) == Finite(ts[i + 1])
  {
    ConsumedShift(p, i - 1);
    assert draws[Stride(p)..][StepDraw(p, i - 1)] == draws[StepDraw(p, i)];
  }

  /** The clock advances from one crater to the next by one tick: the
      rate at every crater but the last is non-zero, and the next crater's
      time is the interarrival time drawn for that rate after it. */
  lemma ClockRule(p: Process, t: real, tStart: real, draws: seq<real>)
    requires Run(p, t, tStart, draws).Success?
    ensures var ts := Run(p, t, tStart, draws).value.times;
            forall i :: 0 <= i < |ts| - 1 ==>
              StepDraw(p, i) < |draws| && Tick(p, ts[i], draws[StepDraw(p, i)]) == Finite(ts[i + 1])
  {
    var ts := Run(p, t, tStart, draws).value.times;
    forall i | 0 <= i < |ts| - 1
      ensures StepDraw(p, i) < |draws| && Tick(p, ts[i], draws[StepDraw(p, i)]) == Finite(ts[i + 1])
    {
      ClockAt(p, t, tStart, draws, i);
    }
  }

  /** The loop of `generate_CSFD_from_production_function` as the draws
      would drive it: craters at the clock readings `ts`, the first at
      the entry clock, none past `tStart`; every diameter draw inverts;
      each tick lands on the next reading; the tick after the last
      reading passes `tStart`; and the draws cover every pass. */
  ghost predicate Finishes(p: Process, tStart: real, draws: seq<real>, ts: seq<real>) {
    && 0 < |ts|
    && Consumed(p, |ts|) <= |draws|
    && (forall i :: 0 <= i < |ts| ==> ts[i] <= tStart)
    && Inverts(p, draws, |ts|)
    && Ticks(p, draws, ts)
    && Tick(p, ts[|ts| - 1], draws[StepDraw(p, |ts| - 1)]).After(tStart)
  }

  /** The diameter draws of the first `n` craters all invert. */
  ghost predicate Inverts(p: Process, draws: seq<real>, n: nat) {
    && Consumed(p, n) <= |draws|
    && forall i :: 0 <= i < n ==> CraterDiameter(p, draws[Consumed(p, i)]).Success?
  }

  /** Each clock reading but the last ticks onto the next one. */
  ghost predicate Ticks(p: Process, draws: seq<real>, ts: seq<real>) {
    && Consumed(p, |ts|) <= |draws|
    && forall i :: 0 <= i < |ts| - 1 ==> Tick(p, ts[i], draws[StepDraw(p, i)]) == Finite(ts[i + 1])
  }

  /** With the first pass's draws used up, crater i's draws are those of
      crater i + 1 before. */
  lemma DrawShift(p: Process, draws: seq<real>, i: nat)
    requires Consumed(p, i + 2) <= |draws|
    ensures Stride(p) <= |draws|
    ensures draws[Stride(p)..][Consumed(p, i)] == draws[Consumed(p, i + 1)]
    ensures draws[Stride(p)..][StepDraw(p, i)] == draws[StepDraw(p, i + 1)]
  {
    ConsumedShift(p, i);
  }

  lemma InvertsShift(p: Process, draws: seq<real>, n: nat)
    requires 0 < n && Inverts(p, draws, n)
    ensures Stride(p) <= |draws|
    ensures Inverts(p, draws[Stride(p)..], n - 1)
  {
    ConsumedShift(p, n - 1);
    forall i | 0 <= i < n - 1
      ensures CraterDiameter(p, draws[Stride(p)..][Consumed(p, i)]).Success?
    {
      DrawShift(p, draws, i);
    }
  }

  lemma TicksShift(p: Process, draws: seq<real>, ts: seq<real>)
    requires 0 < |ts| && Ticks(p, draws, ts)
    ensures Stride(p) <= |draws|
    ensures Ticks(p, draws[Stride(p)..], ts[1..])
  {
    ConsumedShift(p, |ts| - 1);
    var tail := ts[1..];
    forall i | 0 <= i < |tail| - 1
      ensures Tick(p, tail[i], draws[Stride(p)..][StepDraw(p, i)]) == Finite(tail[i + 1])
    {
      DrawShift(p, draws, i);
      assert tail[i] == ts[i + 1] && tail[i + 1] == ts[i + 2];
    }
  }

  /** The loop that `Finishes` after more than one crater, seen from its
      second crater on, with the first pass's draws used up. */
  lemma FinishesShift(p: Process, tStart: real, draws: seq<real>, ts: seq<real>)
    requires 1 < |ts| && Finishes(p, tStart, draws, ts)
    ensures Stride(p) <= |draws|
    ensures Finishes(p, tStart, draws[Stride(p)..], ts[1..])
  {
    InvertsShift(p, draws, |ts|);
    TicksShift(p, draws, ts);
    var n := |ts| - 2;
    DrawShift(p, draws, n);
    assert ts[1..][n] == ts[n + 1];
  }

  /** Conversely, a loop that finishes within the draws is what the run
      computes: it succeeds, with a crater at each of the clock readings. */
  lemma {:induction false} RunFinishes(p: Process, tStart: real, draws: seq<real>, ts: seq<real>)
    requires Finishes(p, tStart, draws, ts)
    ensures Run(p, ts[0], tStart, draws).Success?
    ensures Run(p, ts[0], tStart, draws).value.times == ts
    decreases |ts|
  {
    var t := ts[0];
    assert Consumed(p, 0) == 0 && StepDraw(p, 0) == Stride(p) - 1;
    assert CraterDiameter(p, draws[0]).Success?;
    var next := LoopPass(p, t, draws).value.next;
    if 1 < |ts| {
      FinishesShift(p, tStart, draws, ts);
      RunFinishes(p, tStart, draws[Stride(p)..], ts[1..]);
      assert next == Finite(ts[1]);
      assert [t] + ts[1..] == ts;
    } else {
      assert next.After(tStart);
    }
  }

  lemma PositiveRate(p: Process, s: real)
    requires 0.0 < p.phi(s) && 0.0 < p.plan.ratio && 0.0 < p.area
    ensures 0.0 < Rate(p, s)
  {
    assert 0.0 < p.phi(s) * p.plan.ratio;
  }

  /** In the mean-interval mode the clock advances by exactly 1/lam per
      crater. */
  lemma MeanIntervalSpacing(p: Process, t: real, tStart: real, draws: seq<real>)
    requires !p.poisson
    requires Run(p, t, tStart, draws).Success?
    ensures var ts := Run(p, t, tStart, draws).value.times;
            forall i :: 0 <= i < |ts| - 1 ==> Rate(p, ts[i]) != 0.0 && ts[i + 1] == ts[i] + 1.0 / Rate(p, ts[i])
  {
    var ts := Run(p, t, tStart, draws).value.times;
    ClockRule(p, t, tStart, draws);
    forall i | 0 <= i < |ts| - 1
      ensures Rate(p, ts[i]) != 0.0 && ts[i + 1] == ts[i] + 1.0 / Rate(p, ts[i])
    {
      assert Tick(p, ts[i], draws[StepDraw(p, i)]) == Finite(ts[i + 1]);
      assert Interval(p, Rate(p, ts[i]), draws[StepDraw(p, i)]) == 1.0 / Rate(p, ts[i]);
    }
  }

  /** With a positive phi, N1_ratio and area the mean-interval clock
      strictly increases from one crater to the next. */
  lemma MeanIntervalIncreasing(p: Process, t: real, tStart: real, draws: seq<real>)
    requires !p.poisson
    requires Run(p, t, tStart, draws).Success?
    requires forall s :: 0.0 < p.phi(s)
    requires 0.0 < p.plan.ratio && 0.0 < p.area
    ensures var ts := Run(p, t, tStart, draws).value.times;
            forall i :: 0 <= i < |ts| - 1 ==> ts[i] < ts[i + 1]
  {
    var ts := Run(p, t, tStart, draws).value.times;
    MeanIntervalSpacing(p, t, tStart, draws);
    forall i | 0 <= i < |ts| - 1
      ensures ts[i] < ts[i + 1]
    {
      PositiveRate(p, ts[i]);
      ReciprocalPositive(Rate(p, ts[i]));
    }
  }

  lemma ReciprocalPositive(x: real)
    requires 0.0 < x
    ensures 0.0 < 1.0 / x
  {
  }
}

=== FILE: inverse.dfy ===
/** Inverse of the crater production function
    (`crater_production_function_inverse` in the source).

    The search works on log10 diameters. Each round samples nine equally
    spaced points of the current bracket, interpolates the target among
    their log cumulative frequencies, and narrows the bracket to the two
    adjacent samples around the target found by numpy's `searchsorted`. The
    loop stops when the interpolated point meets the target within `tol`
    or once 100 rounds have run. The production function, the logarithms
    and the interpolation are abstract; `linspace` and `searchsorted` are
    modelled as numpy computes them. */
module ProductionInverse {
  import opened Wrappers
  import opened Numerics

  /** Number of samples per round. */
  const Divisions: nat := 9

  /** The loop breaks once its counter exceeds 99. */
  const RoundCap: nat := 100

  /** A calibrated production function: cumulative crater frequency for a
      diameter in km, and the diameter range it was calibrated over. */
  datatype ProductionFn = ProductionFn(cumulative: real -> real, minD: real, maxD: real)

  /** `np.linspace(start, stop, num)`: `start + k * step`, with the last
      element set to `stop` exactly. */
  function Linspace(start: real, stop: real, num: nat): (xs: seq<real>)
    requires 2 <= num
    ensures |xs| == num && xs[0] == start && xs[num - 1] == stop
    ensures forall k :: 0 <= k < num - 1 ==> xs[k + 1] - xs[k] == (stop - start) / ((num - 1) as real)
  {
    var step := (stop - start) / ((num - 1) as real);
    var xs := seq(num, k requires 0 <= k < num => if k == num - 1 then stop else start + (k as real) * step);
    assert forall k :: 0 <= k < num - 1 ==> xs[k + 1] - xs[k] == step by {
      forall k | 0 <= k < num - 1
        ensures xs[k + 1] - xs[k] == step
      {
        if k + 1 == num - 1 {
          assert ((num - 1) as real) * step == stop - start;
          assert (k as real) == ((num - 1) as real) - 1.0;
        } else {
          assert ((k + 1) as real) * step == (k as real) * step + step;
        }
      }
    }
    xs
  }

  ghost predicate Sorted(a: seq<real>) {
    forall i, j :: 0 <= i < j < |a| ==> a[i] <= a[j]
  }

  /** numpy's binary search for the left insertion point of `v`, restricted
      to `a[lo..hi]`. */
  function Bisect(a: seq<real>, v: real, lo: nat, hi: nat): (q: nat)
    requires lo <= hi <= |a|
    ensures lo <= q <= hi
    decreases hi - lo
  {
    if hi <= lo then lo
    else
      var mid := lo + (hi - lo) / 2;
      if a[mid] < v then Bisect(a, v, mid + 1, hi) else Bisect(a, v, lo, mid)
  }

  /** `np.searchsorted(a, v)` (side 'left'). */
  function SearchSorted(a: seq<real>, v: real): (q: nat)
    ensures q <= |a|
  {
    Bisect(a, v, 0, |a|)
  }

  lemma {:induction false} BisectSplits(a: seq<real>, v: real, lo: nat, hi: nat)
    requires lo <= hi <= |a| && Sorted(a)
    requires forall k :: 0 <= k < lo ==> a[k] < v
    requires forall k :: hi <= k < |a| ==> v <= a[k]
    ensures forall k :: 0 <= k < Bisect(a, v, lo, hi) ==> a[k] < v
    ensures forall k :: Bisect(a, v, lo, hi) <= k < |a| ==> v <= a[k]
    decreases hi - lo
  {
    if lo < hi {
      var mid := lo + (hi - lo) / 2;
      if a[mid] < v {
        BisectSplits(a, v, mid + 1, hi);
      } else {
        BisectSplits(a, v, lo, mid);
      }
    }
  }

  /** On sorted samples `searchsorted` returns the split point: everything
      before it is below `v`, everything from it on is at least `v`. */
  lemma SearchSortedSplits(a: seq<real>, v: real)
    requires Sorted(a)
    ensures forall k :: 0 <= k < SearchSorted(a, v) ==> a[k] < v
    ensures forall k :: SearchSorted(a, v) <= k < |a| ==> v <= a[k]
  {
    BisectSplits(a, v, 0, |a|);
  }

  /** `xrange`, the pair [xrange[0], xrange[1]] of log10 diameters. The
      samples of a round run from `right` to `left`. */
  datatype Bracket = Bracket(left: real, right: real)

  function Width(b: Bracket): real {
    Abs(b.left - b.right)
  }

  /** log10 of the cumulative frequency at the diameter 10^x. */
  function LogCumulative(maths: Maths, pf: ProductionFn, x: real): real {
    maths.log10(pf.cumulative(maths.pow(10.0, x)))
  }

  /** x0 of a round. */
  function Samples(br: Bracket): (x0: seq<real>)
    ensures |x0| == Divisions
  {
    Linspace(br.right, br.left, Divisions)
  }

  /** The samples run from the bracket's right end to its left end, and
      consecutive samples are 1/8 of the bracket apart. */
  lemma SamplesLayout(br: Bracket)
    ensures var x0 := Samples(br);
            && x0[0] == br.right
            && x0[Divisions - 1] == br.left
            && forall k :: 0 <= k < Divisions - 1 ==> x0[k + 1] - x0[k] == (br.left - br.right) / 8.0
  {
  }

  /** y0 of a round. */
  function SampleValues(maths: Maths, pf: ProductionFn, x0: seq<real>): (y0: seq<real>)
    ensures |y0| == |x0|
    ensures forall k :: 0 <= k < |x0| ==> y0[k] == LogCumulative(maths, pf, x0[k])
  {
    seq(|x0|, k requires 0 <= k < |x0| => LogCumulative(maths, pf, x0[k]))
  }

  /** What one round leaves behind: the interpolated point x, y1 at x, and
      the bracket for the next round. */
  datatype Step = Step(x: real, y1: real, next: Bracket)

  /** One pass of the loop body. `x0[[q, q - 1]]` reads past the end when
      q is 9 (IndexError) and, Python-style, wraps to the last sample when
      q is 0. */
  function Round(maths: Maths, pf: ProductionFn, br: Bracket, logY: real): (r: Result<Step>)
    ensures r.Failure? <==> SearchSorted(SampleValues(maths, pf, Samples(br)), logY) == Divisions
    ensures r.Failure? ==> r.error == IndexOutOfRange
    ensures r.Success? ==> r.value.y1 == LogCumulative(maths, pf, r.value.x)
    ensures r.Success? ==> Width(r.value.next) == Width(br) / 8.0 || Width(r.value.next) == Width(br)
  {
    var x0 := Samples(br);
    var y0 := SampleValues(maths, pf, x0);
    var x := maths.interp(logY, y0, x0);
    var y1 := LogCumulative(maths, pf, x);
    var q := SearchSorted(y0, logY);
    if q == Divisions then Failure(IndexOutOfRange)
    else
      var next := Bracket(x0[q], x0[if q == 0 then Divisions - 1 else q - 1]);
      assert q == 0 ==> Width(next) == Width(br);
      assert 0 < q ==> x0[q] - x0[q - 1] == (br.left - br.right) / 8.0;
      Success(Step(x, y1, next))
  }

  /** On monotone samples the round fails exactly when the target lies
      above every sample, i.e. above the value at the bracket's left end. */
  lemma RoundFailsAboveSamples(maths: Maths, pf: ProductionFn, br: Bracket, logY: real)
    requires Sorted(SampleValues(maths, pf, Samples(br)))
    ensures Round(maths, pf, br, logY).Failure? <==> LogCumulative(maths, pf, br.left) < logY
  {
    var y0 := SampleValues(maths, pf, Samples(br));
    SearchSortedSplits(y0, logY);
  }

  /** On monotone samples a target at or below the first sample gives
      q = 0, and `x0[[0, -1]]` is the old bracket with its ends swapped. */
  lemma RoundBelowSamplesSwaps(maths: Maths, pf: ProductionFn, br: Bracket, logY: real)
    requires Sorted(SampleValues(maths, pf, Samples(br)))
    requires logY <= LogCumulative(maths, pf, br.right)
    ensures Round(maths, pf, br, logY).Success?
    ensures Round(maths, pf, br, logY).value.next == Bracket(br.right, br.left)
  {
    var y0 := SampleValues(maths, pf, Samples(br));
    SearchSortedSplits(y0, logY);
    assert SearchSorted(y0, logY) == 0;
  }

  /** On monotone samples a target strictly above the first sample and at
      most the last one leaves the next bracket on two adjacent samples
      whose values straddle it. */
  lemma RoundBracketsTarget(maths: Maths, pf: ProductionFn, br: Bracket, logY: real)
    requires Sorted(SampleValues(maths, pf, Samples(br)))
    requires LogCumulative(maths, pf, br.right) < logY <= LogCumulative(maths, pf, br.left)
    ensures Round(maths, pf, br, logY).Success?
    ensures var next := Round(maths, pf, br, logY).value.next;
            && LogCumulative(maths, pf, next.right) < logY <= LogCumulative(maths, pf, next.left)
            && Width(next) == Width(br) / 8.0
  {
    var x0 := Samples(br);
    var y0 := SampleValues(maths, pf, x0);
    SearchSortedSplits(y0, logY);
    var q := SearchSorted(y0, logY);
    assert 0 < q < Divisions;
    assert y0[q - 1] < logY <= y0[q];
  }

  /** The estimate the loop ends with: the log10 diameter x, the number of
      rounds run, and the last bracket. */
  datatype Estimate = Estimate(x: real, rounds: nat, bracket: Bracket)

  function Converged(maths: Maths, pf: ProductionFn, x: real, logY: real, tol: real): bool {
    Abs(LogCumulative(maths, pf, x) - logY) < tol
  }

  /** The `while True` loop, entered with `count` rounds already run. It
      runs at most 100 rounds in all, whatever the production function
      returns; ending before the cap means the last point converged; and
      the bracket never widens. */
  function Refine(maths: Maths, pf: ProductionFn, br: Bracket, logY: real, tol: real, count: nat)
    : (r: Result<Estimate>)
    requires count < RoundCap
    ensures r.Success? ==> count < r.value.rounds <= RoundCap
    ensures r.Success? && r.value.rounds < RoundCap ==> Converged(maths, pf, r.value.x, logY, tol)
    ensures r.Success? ==> Width(r.value.bracket) <= Width(br)
    ensures r.Failure? ==> r.error == IndexOutOfRange
    decreases RoundCap - count, 1
  {
    Advance(maths, pf, br, logY, tol, count, Round(maths, pf, br, logY))
  }

  /** What a round's outcome on `br` says about a round: failures carry
      IndexError, y1 is the value at x, and the next bracket is no wider. */
  ghost predicate Outcome(maths: Maths, pf: ProductionFn, br: Bracket, round: Result<Step>) {
    && (round.Failure? ==> round.error == IndexOutOfRange)
    && (round.Success? ==> round.value.y1 == LogCumulative(maths, pf, round.value.x))
    && (round.Success? ==> Width(round.value.next) <= Width(br))
  }

  /** The rest of a pass of the loop once its round has produced `round`:
      raise, break, or go on from the next bracket. */
  function Advance(
    maths: Maths, pf: ProductionFn, br: Bracket, logY: real, tol: real, count: nat, round: Result<Step>)
    : (r: Result<Estimate>)
    requires count < RoundCap
    requires Outcome(maths, pf, br, round)
    ensures r.Success? ==> count < r.value.rounds <= RoundCap
    ensures r.Success? && r.value.rounds < RoundCap ==> Converged(maths, pf, r.value.x, logY, tol)
    ensures r.Success? ==> Width(r.value.bracket) <= Width(br)
    ensures r.Failure? ==> r.error == IndexOutOfRange
    decreases RoundCap - count, 0
  {
    match round
    case Failure(e) => Failure(e)
    case Success(step) =>
      var count' := count + 1;
      if Abs(step.y1 - logY) < tol || count' > RoundCap - 1 then
        Success(Estimate(step.x, count', step.next))
      else
        Refine(maths, pf, step.next, logY, tol, count')
  }

  /** The value returned to the caller together with how it was reached. */
  datatype Inversion = Inversion(diameter: real, estimate: Estimate)

  /** `crater_production_function_inverse(pf, irange, y, tol)`. The
      diameter returned is 10^x, positive whenever powers of positive
      bases are. */
  function Invert(maths: Maths, pf: ProductionFn, irange: (real, real), y: real, tol: real)
    : (r: Result<Inversion>)
    ensures r.Success? ==> 1 <= r.value.estimate.rounds <= RoundCap
    ensures r.Success? ==> r.value.diameter == maths.pow(10.0, r.value.estimate.x)
    ensures r.Success? && r.value.estimate.rounds < RoundCap ==>
              Converged(maths, pf, r.value.estimate.x, maths.log10(y), tol)
    ensures r.Success? ==>
              Width(r.value.estimate.bracket) <= Abs(maths.log10(irange.0) - maths.log10(irange.1))
    ensures r.Success? && PowPositive(maths) ==> 0.0 < r.value.diameter
    ensures r.Failure? <==>
              Refine(maths, pf, Bracket(maths.log10(irange.0), maths.log10(irange.1)), maths.log10(y), tol, 0).Failure?
  {
    var logY := maths.log10(y);
    var xrange := Bracket(maths.log10(irange.0), maths.log10(irange.1));
    match Refine(maths, pf, xrange, logY, tol, 0)
    case Failure(e) => Failure(e)
    case Success(est) => Success(Inversion(maths.pow(10.0, est.x), est))
  }

  /** The cumulative frequency never grows with the diameter, so its log
      is antitone in the log diameter. */
  ghost predicate Antitone(maths: Maths, pf: ProductionFn) {
    forall a, b {:trigger Ordered(maths, pf, a, b)} :: Ordered(maths, pf, a, b)
  }

  /** The larger log diameter has the smaller (or equal) log cumulative
      value. */
  ghost predicate Ordered(maths: Maths, pf: ProductionFn, a: real, b: real) {
    a <= b ==> LogCumulative(maths, pf, b) <= LogCumulative(maths, pf, a)
  }

  /** Adjacent descent gives descent between any two positions. */
  lemma {:induction false} DescendingChain(a: seq<real>, i: nat, j: nat)
    requires forall k :: 0 <= k < |a| - 1 ==> a[k + 1] < a[k]
    requires i < j < |a|
    ensures a[j] < a[i]
    decreases j - i
  {
    if i + 1 < j {
      DescendingChain(a, i + 1, j);
    }
  }

  /** With its small-diameter end below its large-diameter end, a bracket
      is sampled in strictly descending order. */
  lemma DescendingSamples(br: Bracket)
    requires br.left < br.right
    ensures forall i, j :: 0 <= i < j < Divisions ==> Samples(br)[j] < Samples(br)[i]
  {
    var x0 := Samples(br);
    assert (br.left - br.right) / ((Divisions - 1) as real) < 0.0;
    forall i, j | 0 <= i < j < Divisions
      ensures x0[j] < x0[i]
    {
      DescendingChain(x0, i, j);
    }
  }

  /** The bracket is well ordered and holds the target between the log
      cumulative values at its two ends. */
  ghost predicate Straddles(maths: Maths, pf: ProductionFn, br: Bracket, logY: real) {
    && br.left < br.right
    && LogCumulative(maths, pf, br.right) < logY <= LogCumulative(maths, pf, br.left)
  }

  /** On an antitone production function, a well-ordered bracket that
      holds the target gives a successful pass whose next bracket is again
      well ordered and again holds the target. */
  lemma RoundNarrows(maths: Maths, pf: ProductionFn, br: Bracket, logY: real) returns (step: Step)
    requires Antitone(maths, pf) && Straddles(maths, pf, br, logY)
    ensures Round(maths, pf, br, logY) == Success(step)
    ensures Straddles(maths, pf, step.next, logY)
  {
    var x0 := Samples(br);
    var y0 := SampleValues(maths, pf, x0);
    DescendingSamples(br);
    forall i, j | 0 <= i < j < |y0|
      ensures y0[i] <= y0[j]
    {
      assert Ordered(maths, pf, x0[j], x0[i]);
    }
    RoundBracketsTarget(maths, pf, br, logY);
    SearchSortedSplits(y0, logY);
    var q := SearchSorted(y0, logY);
    assert 0 < q < Divisions;
    assert Round(maths, pf, br, logY).value.next == Bracket(x0[q], x0[q - 1]);
    step := Round(maths, pf, br, logY).value;
  }

  /** The loop's passes from `count` on all succeed, up to the pass that
      stops it. */
  ghost predicate Completes(maths: Maths, pf: ProductionFn, br: Bracket, logY: real, tol: real, count: nat)
    requires count < RoundCap
    decreases RoundCap - count, 1
  {
    Proceeds(maths, pf, logY, tol, count, Round(maths, pf, br, logY))
  }

  /** A pass whose round produced `round` succeeds, and so do the passes
      after it up to the one that stops the loop. */
  ghost predicate Proceeds(maths: Maths, pf: ProductionFn, logY: real, tol: real, count: nat, round: Result<Step>)
    requires count < RoundCap
    decreases RoundCap - count, 0
  {
    match round
    case Failure(_) => false
    case Success(step) =>
      var count' := count + 1;
      Abs(step.y1 - logY) < tol || count' > RoundCap - 1 || Completes(maths, pf, step.next, logY, tol, count')
  }

  /** The loop succeeds exactly when every pass it runs succeeds. */
  lemma RefineCompletes(maths: Maths, pf: ProductionFn, br: Bracket, logY: real, tol: real, count: nat)
    requires count < RoundCap
    ensures Refine(maths, pf, br, logY, tol, count).Success? <==> Completes(maths, pf, br, logY, tol, count)
  {
    AdvanceProceeds(maths, pf, br, logY, tol, count, Round(maths, pf, br, logY));
  }

  /** The rest of a pass succeeds exactly when it and the passes after it
      succeed; the induction runs over the passes. */
  lemma {:induction false} AdvanceProceeds(
    maths: Maths, pf: ProductionFn, br: Bracket, logY: real, tol: real, count: nat, round: Result<Step>)
    requires count < RoundCap
    requires Outcome(maths, pf, br, round)
    ensures Advance(maths, pf, br, logY, tol, count, round).Success? <==> Proceeds(maths, pf, logY, tol, count, round)
    decreases RoundCap - count
  {
    if round.Success? && !(Abs(round.value.y1 - logY) < tol || count + 1 > RoundCap - 1) {
      var next := round.value.next;
      AdvanceProceeds(maths, pf, next, logY, tol, count + 1, Round(maths, pf, next, logY));
    }
  }

  /** Every pass from a well-ordered bracket holding the target succeeds
      and hands on such a bracket again. */
  ghost predicate Narrowing(maths: Maths, pf: ProductionFn, logY: real) {
    forall b {:trigger Round(maths, pf, b, logY)} :: Straddles(maths, pf, b, logY) ==>
      Round(maths, pf, b, logY).Success? && Straddles(maths, pf, Round(maths, pf, b, logY).value.next, logY)
  }

  /** When passes keep the target inside, the loop completes from any
      well-ordered bracket holding it. */
  lemma LoopCompletes(maths: Maths, pf: ProductionFn, br: Bracket, logY: real, tol: real, count: nat)
    requires count < RoundCap
    requires Narrowing(maths, pf, logY) && Straddles(maths, pf, br, logY)
    ensures Completes(maths, pf, br, logY, tol, count)
  {
    LoopProceeds(maths, pf, logY, tol, count, Round(maths, pf, br, logY));
  }

  /** A pass that succeeded and kept the target inside is followed by
      passes that all succeed; the induction runs over the passes. */
  lemma {:induction false} LoopProceeds(
    maths: Maths, pf: ProductionFn, logY: real, tol: real, count: nat, round: Result<Step>)
    requires count < RoundCap
    requires Narrowing(maths, pf, logY)
    requires round.Success? && Straddles(maths, pf, round.value.next, logY)
    ensures Proceeds(maths, pf, logY, tol, count, round)
    decreases RoundCap - count
  {
    var step := round.value;
    if !(Abs(step.y1 - logY) < tol || count + 1 > RoundCap - 1) {
      LoopProceeds(maths, pf, logY, tol, count + 1, Round(maths, pf, step.next, logY));
    }
  }

  /** On an antitone production function every pass keeps the target
      inside. */
  lemma AntitoneNarrows(maths: Maths, pf: ProductionFn, logY: real)
    requires Antitone(maths, pf)
    ensures Narrowing(maths, pf, logY)
  {
    forall b | Straddles(maths, pf, b, logY)
      ensures Round(maths, pf, b, logY).Success? && Straddles(maths, pf, Round(maths, pf, b, logY).value.next, logY)
    {
      var step := RoundNarrows(maths, pf, b, logY);
    }
  }

  /** The loop never fails on an antitone production function and a target
      held by a well-ordered bracket. */
  lemma RefineSucceeds(maths: Maths, pf: ProductionFn, br: Bracket, logY: real, tol: real, count: nat)
    requires count < RoundCap
    requires Antitone(maths, pf) && Straddles(maths, pf, br, logY)
    ensures Refine(maths, pf, br, logY, tol, count).Success?
  {
    AntitoneNarrows(maths, pf, logY);
    LoopCompletes(maths, pf, br, logY, tol, count);
    RefineCompletes(maths, pf, br, logY, tol, count);
  }

  /** The inverse succeeds on an antitone production function whenever the
      target lies between the cumulative frequencies at the two ends of
      the range of interest. */
  lemma InvertSucceeds(maths: Maths, pf: ProductionFn, irange: (real, real), y: real, tol: real)
    requires Antitone(maths, pf)
    requires maths.log10(irange.0) < maths.log10(irange.1)
    requires LogCumulative(maths, pf, maths.log10(irange.1)) < maths.log10(y)
    requires maths.log10(y) <= LogCumulative(maths, pf, maths.log10(irange.0))
    ensures Invert(maths, pf, irange, y, tol).Success?
  {
    RefineSucceeds(maths, pf, Bracket(maths.log10(irange.0), maths.log10(irange.1)), maths.log10(y), tol, 0);
  }
}

=== FILE: morphometry.dfy ===
/** The crater morphometry kernel (`crater_depth` in the source).

    Given the elevation field `z`, the distance `d[k]` of every node from
    the crater centre (metres) and the crater diameter (kilometres), the
    kernel adds one elevation change to every node: a bowl inside the
    crater radius and an ejecta blanket outside it, or, when no rim is
    wanted, a bowl inside 90% of the radius and nothing elsewhere.

    The lognormal noise factor Z_noise is drawn once per crater; here it is
    the parameter `noise`. Powers with non-integer exponents come from
    `maths.pow`. */
module Morphometry {
  import opened Wrappers
  import opened Numerics

  /** Diameter (m) at which craters turn from simple to complex on Mars. */
  const Transition: real := 7000.0

  /** Inheritance parameter I, fixed to 1 in the source. */
  const Inheritance: real := 1.0

  /** Without a rim only the inner 90% of the radius is excavated. */
  const NoRimFraction: real := 0.9

  /** One coefficient set of the morphometric power laws
      H1 = depth * Dm^depthExp, H2 = rim * Dm^rimExp, m = shape * Dm^shapeExp. */
  datatype Coefficients = Coefficients(
    depth: real, depthExp: real,
    rim: real, rimExp: real,
    shape: real, shapeExp: real)

  const SimpleCrater := Coefficients(2.54, 0.67, 1.93, 0.52, 0.73, 0.11)
  const ComplexCrater := Coefficients(12.20, 0.49, 0.79, 0.6, 0.64, 0.13)

  /** The regime switch: exactly one of the two coefficient sets applies to
      any diameter in metres, the simple one up to and including 7000 m. */
  function RegimeCoefficients(dm: real): (c: Coefficients)
    ensures c == SimpleCrater <==> dm <= Transition
    ensures c == ComplexCrater <==> Transition < dm
  {
    if dm <= Transition then SimpleCrater else ComplexCrater
  }

  /** Crater depth H1, rim height H2, interior exponent m and exterior
      exponent n of one crater. */
  datatype Shape = Shape(h1: real, h2: real, m: real, n: real)

  /** H2H1/2 + H1/(m+2), the divisor in the formula for n. */
  function ExteriorDivisor(h1: real, h2: real, m: real): real
    requires m + 2.0 != 0.0
  {
    (h2 - h1) / 2.0 + h1 / (m + 2.0)
  }

  /** n is the exponent for which (2 - n) times the divisor gives back H2:
      the formula for n, rearranged. */
  ghost predicate Balanced(s: Shape) {
    && s.m + 2.0 != 0.0
    && (2.0 - s.n) * ExteriorDivisor(s.h1, s.h2, s.m) == s.h2
  }

  /** Depth, rim height and interior exponent (H1, H2, m) from the power
      laws of the diameter's regime. */
  function Heights(maths: Maths, dm: real): (h: (real, real, real))
    requires 0.0 < dm && PowPositive(maths)
    ensures dm <= Transition ==>
              h == (2.54 * maths.pow(dm, 0.67), 1.93 * maths.pow(dm, 0.52), 0.73 * maths.pow(dm, 0.11))
    ensures Transition < dm ==>
              h == (12.20 * maths.pow(dm, 0.49), 0.79 * maths.pow(dm, 0.6), 0.64 * maths.pow(dm, 0.13))
    ensures 0.0 < h.0 && 0.0 < h.1 && 0.0 < h.2
  {
    var c := RegimeCoefficients(dm);
    (c.depth * maths.pow(dm, c.depthExp),
     c.rim * maths.pow(dm, c.rimExp),
     c.shape * maths.pow(dm, c.shapeExp))
  }

  /** The shape parameters of a crater of diameter `dm` metres. A zero
      divisor in the formula for n raises ZeroDivisionError; any other
      divisor yields the shape. */
  function ShapeOf(maths: Maths, dm: real): (r: Result<Shape>)
    requires 0.0 < dm && PowPositive(maths)
    ensures var h := Heights(maths, dm);
            r.Failure? <==> ExteriorDivisor(h.0, h.1, h.2) == 0.0
    ensures r.Success? ==> (r.value.h1, r.value.h2, r.value.m) == Heights(maths, dm)
    ensures r.Success? ==> 0.0 < r.value.h1 && 0.0 < r.value.h2 && 0.0 < r.value.m
    ensures r.Success? ==> Balanced(r.value)
    ensures r.Failure? ==> r.error == ZeroDivision
  {
    var h := Heights(maths, dm);
    var divisor := ExteriorDivisor(h.0, h.1, h.2);
    if divisor == 0.0 then Failure(ZeroDivision)
    else Success(Shape(h.0, h.1, h.2, 2.0 - h.1 / divisor))
  }

  /** DH inside the crater: the bowl profile scaled by the noise factor. */
  function BowlProfile(maths: Maths, s: Shape, dm: real, noise: real, di: real): real
    requires 0.0 < dm
  {
    (s.h2 - s.h1) + noise * s.h1 * maths.pow(2.0 * di / dm, s.m)
  }

  /** DH outside the crater: the ejecta blanket decaying with distance. */
  function EjectaProfile(maths: Maths, s: Shape, dm: real, di: real): real
    requires 0.0 < dm
  {
    s.h2 * maths.pow(2.0 * di / dm, -s.n)
  }

  /** DE for a node inside the crater. Its reference elevation is its own
      elevation, so the inheritance term is (z - z) times a weight. */
  function InsideDelta(maths: Maths, s: Shape, dm: real, noise: real, di: real, zi: real): real
    requires 0.0 < dm
  {
    var radius := dm / 2.0;
    var eRefIn := zi;
    BowlProfile(maths, s, dm, noise, di)
      + 1.0 * (eRefIn - zi) * (1.0 - Inheritance * (di / radius) * (di / radius))
  }

  /** G = min(1 - I, DH/H2), the blend weight of the reference elevation. */
  function BlendWeight(maths: Maths, s: Shape, dm: real, di: real): real
    requires 0.0 < dm && s.h2 != 0.0
  {
    Min(1.0 - Inheritance, EjectaProfile(maths, s, dm, di) / s.h2)
  }

  /** E_ref = avgin + avgout * (d/radius)^-n for a node outside the crater. */
  function ReferenceOutside(maths: Maths, s: Shape, dm: real, avgIn: real, avgOut: real, di: real): real
    requires 0.0 < dm
  {
    avgIn + avgOut * maths.pow(di / (dm / 2.0), -s.n)
  }

  /** DE for a node outside the crater. */
  function OutsideDelta(maths: Maths, s: Shape, dm: real, avgIn: real, avgOut: real, di: real, zi: real): real
    requires 0.0 < dm && s.h2 != 0.0
  {
    EjectaProfile(maths, s, dm, di)
      + BlendWeight(maths, s, dm, di) * (ReferenceOutside(maths, s, dm, avgIn, avgOut, di) - zi)
  }

  /** Whether a distance falls on the selected side of `bound`:
      `d <= bound` for the inside, `d > bound` for the outside. */
  predicate Picks(di: real, bound: real, inside: bool) {
    if inside then di <= bound else bound < di
  }

  /** `Z[idx]` for the index set `np.where(...)`: the elevations of the
      selected nodes, in node order. */
  function Gather(z: seq<real>, d: seq<real>, bound: real, inside: bool): (g: seq<real>)
    requires |d| <= |z|
    ensures |g| <= |d|
    ensures |g| == 0 <==> forall k :: 0 <= k < |d| ==> !Picks(d[k], bound, inside)
  {
    if |d| == 0 then []
    else
      var rest := Gather(z[1..], d[1..], bound, inside);
      assert forall k :: 1 <= k < |d| ==> d[1..][k - 1] == d[k];
      (if Picks(d[0], bound, inside) then [z[0]] else []) + rest
  }

  /** The average elevation of a node set, taking an empty set as level 0
      rather than NaN. */
  function ReferenceLevel(xs: seq<real>): (a: real)
    ensures |xs| == 0 ==> a == 0.0
    ensures 0 < |xs| ==> Average(xs) == Real(a) && a * (|xs| as real) == Sum(xs)
  {
    match Average(xs)
    case Real(v) => v
    case NaN => 0.0
  }

  /** The field after a crater with a rim. Inside the radius the
      inheritance term cancels, so a node receives the noisy bowl profile
      whatever the reference levels are. Nodes beyond the end of the
      distance array are not indexed by the source and keep their value. */
  function RimField(maths: Maths, s: Shape, dm: real, z: seq<real>, d: seq<real>, noise: real): (f: seq<real>)
    requires 0.0 < dm && s.h2 != 0.0 && |d| <= |z|
    ensures |f| == |z|
    ensures forall k :: 0 <= k < |d| && d[k] <= dm / 2.0 ==> f[k] == z[k] + BowlProfile(maths, s, dm, noise, d[k])
    ensures forall k :: |d| <= k < |z| ==> f[k] == z[k]
  {
    var radius := dm / 2.0;
    var avgIn := ReferenceLevel(Gather(z, d, radius, true));
    var avgOut := ReferenceLevel(Gather(z, d, radius, false));
    seq(|z|, k requires 0 <= k < |z| =>
      if k < |d| && d[k] <= radius then z[k] + InsideDelta(maths, s, dm, noise, d[k], z[k])
      else if k < |d| then z[k] + OutsideDelta(maths, s, dm, avgIn, avgOut, d[k], z[k])
      else z[k])
  }

  /** The field after a crater without a rim: the bowl profile without a
      noise factor (a factor of 1) inside 90% of the radius. */
  function NoRimField(maths: Maths, s: Shape, dm: real, z: seq<real>, d: seq<real>): (f: seq<real>)
    requires 0.0 < dm && |d| <= |z|
    ensures |f| == |z|
    ensures forall k :: 0 <= k < |d| && d[k] <= NoRimFraction * (dm / 2.0) ==>
              f[k] == z[k] + BowlProfile(maths, s, dm, 1.0, d[k])
    ensures forall k :: 0 <= k < |z| && !(k < |d| && d[k] <= NoRimFraction * (dm / 2.0)) ==> f[k] == z[k]
  {
    var radius := dm / 2.0;
    seq(|z|, k requires 0 <= k < |z| =>
      if k < |d| && d[k] <= radius * NoRimFraction then z[k] + InsideDelta(maths, s, dm, 1.0, d[k], z[k])
      else z[k] + 0.0)
  }

  /** `crater_depth(mg, d, diameter, rim)` with the elevation field `z`
      and the lognormal noise draw `noise` made explicit. */
  function CraterDepth(maths: Maths, z: seq<real>, d: seq<real>, diameter: real, rim: bool, noise: real)
    : (r: Result<seq<real>>)
    requires PowPositive(maths)
    ensures diameter <= 0.0 <==> r == Failure(NonPositiveDiameter)
    ensures 0.0 < diameter ==>
              (r == Failure(ZeroDivision) <==> ShapeOf(maths, diameter * 1000.0).Failure?)
    ensures 0.0 < diameter && ShapeOf(maths, diameter * 1000.0).Success? ==>
              (r == Failure(IndexOutOfRange) <==> |z| < |d|)
    ensures 0.0 < diameter && ShapeOf(maths, diameter * 1000.0).Success? && |d| <= |z| ==> r.Success?
    ensures r.Success? ==> |r.value| == |z|
  {
    if diameter <= 0.0 then Failure(NonPositiveDiameter)
    else
      var dm := diameter * 1000.0;
      match ShapeOf(maths, dm)
      case Failure(e) => Failure(e)
      case Success(s) =>
        if |z| < |d| then Failure(IndexOutOfRange)
        else if rim then Success(RimField(maths, s, dm, z, d, noise))
        else Success(NoRimField(maths, s, dm, z, d))
  }

  /** With I = 1 the blend weight of every node outside the rim is 0:
      DH/H2 is a positive power, so min(1 - I, DH/H2) = min(0, DH/H2) = 0. */
  lemma BlendWeightVanishes(maths: Maths, s: Shape, dm: real, di: real)
    requires PowPositive(maths) && 0.0 < dm && 0.0 < s.h2 && dm / 2.0 < di
    ensures BlendWeight(maths, s, dm, di) == 0.0
    ensures 0.0 < EjectaProfile(maths, s, dm, di)
  {
    var p := maths.pow(2.0 * di / dm, -s.n);
    assert 0.0 < 2.0 * di / dm;
    assert 0.0 < p;
    assert EjectaProfile(maths, s, dm, di) / s.h2 == p;
  }

  /** Inside the rim the reference elevation is the node's own elevation,
      so the change is the bowl profile alone. */
  lemma InsideInheritanceCancels(maths: Maths, s: Shape, dm: real, noise: real, di: real, zi: real)
    requires 0.0 < dm
    ensures InsideDelta(maths, s, dm, noise, di, zi) == BowlProfile(maths, s, dm, noise, di)
  {
  }

  /** Outside the rim the blend weight is 0, so the change is the ejecta
      profile alone, whatever the reference elevations are. */
  lemma OutsideInheritanceCancels(maths: Maths, s: Shape, dm: real, avgIn: real, avgOut: real, di: real, zi: real)
    requires PowPositive(maths) && 0.0 < dm && 0.0 < s.h2 && dm / 2.0 < di
    ensures OutsideDelta(maths, s, dm, avgIn, avgOut, di, zi) == EjectaProfile(maths, s, dm, di)
  {
    BlendWeightVanishes(maths, s, dm, di);
  }

  /** Per-node form of a rim field: inside the radius the noisy bowl
      profile, outside it the ejecta profile, which always raises the node,
      and nothing beyond the end of the distance array. */
  lemma RimFieldDeltas(maths: Maths, s: Shape, dm: real, z: seq<real>, d: seq<real>, noise: real)
    requires PowPositive(maths) && 0.0 < dm && 0.0 < s.h2 && |d| <= |z|
    ensures var f := RimField(maths, s, dm, z, d, noise);
            && (forall k :: 0 <= k < |d| && d[k] <= dm / 2.0 ==>
                  f[k] == z[k] + BowlProfile(maths, s, dm, noise, d[k]))
            && (forall k :: 0 <= k < |d| && dm / 2.0 < d[k] ==>
                  f[k] == z[k] + EjectaProfile(maths, s, dm, d[k]) && z[k] < f[k])
            && (forall k :: |d| <= k < |z| ==> f[k] == z[k])
  {
    var f := RimField(maths, s, dm, z, d, noise);
    var radius := dm / 2.0;
    var avgIn := ReferenceLevel(Gather(z, d, radius, true));
    var avgOut := ReferenceLevel(Gather(z, d, radius, false));
    forall k | 0 <= k < |d| && d[k] <= radius
      ensures f[k] == z[k] + BowlProfile(maths, s, dm, noise, d[k])
    {
      assert f[k] == z[k] + InsideDelta(maths, s, dm, noise, d[k], z[k]);
      InsideInheritanceCancels(maths, s, dm, noise, d[k], z[k]);
    }
    forall k | 0 <= k < |d| && radius < d[k]
      ensures f[k] == z[k] + EjectaProfile(maths, s, dm, d[k]) && z[k] < f[k]
    {
      assert f[k] == z[k] + OutsideDelta(maths, s, dm, avgIn, avgOut, d[k], z[k]);
      OutsideInheritanceCancels(maths, s, dm, avgIn, avgOut, d[k], z[k]);
      BlendWeightVanishes(maths, s, dm, d[k]);
    }
  }

  /** With a rim, every node receives exactly one change: inside the radius
      the inheritance term cancels and the change is the noisy bowl
      profile; outside it the blend weight is 0 and the change is the
      ejecta profile, which always raises the node; nodes the distance
      array does not reach are left alone. */
  lemma RimDeltas(maths: Maths, z: seq<real>, d: seq<real>, diameter: real, noise: real)
    requires PowPositive(maths)
    requires CraterDepth(maths, z, d, diameter, true, noise).Success?
    ensures 0.0 < diameter && ShapeOf(maths, diameter * 1000.0).Success?
    ensures var f := CraterDepth(maths, z, d, diameter, true, noise).value;
            var dm := diameter * 1000.0;
            var s := ShapeOf(maths, dm).value;
            && (forall k :: 0 <= k < |d| && d[k] <= dm / 2.0 ==>
                  f[k] == z[k] + BowlProfile(maths, s, dm, noise, d[k]))
            && (forall k :: 0 <= k < |d| && dm / 2.0 < d[k] ==>
                  f[k] == z[k] + EjectaProfile(maths, s, dm, d[k]) && z[k] < f[k])
            && (forall k :: |d| <= k < |z| ==> f[k] == z[k])
  {
    var dm := diameter * 1000.0;
    var s := ShapeOf(maths, dm).value;
    assert CraterDepth(maths, z, d, diameter, true, noise).value == RimField(maths, s, dm, z, d, noise);
    RimFieldDeltas(maths, s, dm, z, d, noise);
  }

  /** Without a rim, a node more than 90% of the radius away is left exactly
      as it was, and a node within it receives the bowl profile without any
      noise factor. */
  lemma NoRimDeltas(maths: Maths, z: seq<real>, d: seq<real>, diameter: real, noise: real)
    requires PowPositive(maths)
    requires CraterDepth(maths, z, d, diameter, false, noise).Success?
    ensures 0.0 < diameter && ShapeOf(maths, diameter * 1000.0).Success?
    ensures var f := CraterDepth(maths, z, d, diameter, false, noise).value;
            var dm := diameter * 1000.0;
            var s := ShapeOf(maths, dm).value;
            && (forall k :: 0 <= k < |d| && d[k] <= NoRimFraction * (dm / 2.0) ==>
                  f[k] == z[k] + (s.h2 - s.h1) + s.h1 * maths.pow(2.0 * d[k] / dm, s.m))
            && (forall k :: 0 <= k < |z| && !(k < |d| && d[k] <= NoRimFraction * (dm / 2.0)) ==>
                  f[k] == z[k])
  {
  }

  /** Without a rim the noise draw has no effect on the result. */
  lemma NoRimIgnoresNoise(maths: Maths, z: seq<real>, d: seq<real>, diameter: real, noise1: real, noise2: real)
    requires PowPositive(maths)
    ensures CraterDepth(maths, z, d, diameter, false, noise1) == CraterDepth(maths, z, d, diameter, false, noise2)
  {
  }

  /** DE outside the rim exactly as the source computes it: the reference
      elevation uses np.average of the inside and outside slices, NaN for
      an empty slice, and G * NaN is NaN even when G is 0. */
  function OutsideDeltaAsWritten(maths: Maths, s: Shape, dm: real, avgIn: Num, avgOut: Num, di: real, zi: real): Num
    requires 0.0 < dm && s.h2 != 0.0
  {
    var eRefOut := avgIn.Plus(avgOut.Times(Real(maths.pow(di / (dm / 2.0), -s.n))));
    Real(EjectaProfile(maths, s, dm, di))
      .Plus(Real(BlendWeight(maths, s, dm, di)).Times(eRefOut.Minus(Real(zi))))
  }

  /** The rim field exactly as the source computes it, NaN included. */
  function RimFieldAsWritten(maths: Maths, s: Shape, dm: real, z: seq<real>, d: seq<real>, noise: real): (f: seq<Num>)
    requires 0.0 < dm && s.h2 != 0.0 && |d| <= |z|
    ensures |f| == |z|
  {
    var radius := dm / 2.0;
    var avgIn := Average(Gather(z, d, radius, true));
    var avgOut := Average(Gather(z, d, radius, false));
    seq(|z|, k requires 0 <= k < |z| =>
      if k < |d| && d[k] <= radius then Real(z[k] + InsideDelta(maths, s, dm, noise, d[k], z[k]))
      else if k < |d| then Real(z[k]).Plus(OutsideDeltaAsWritten(maths, s, dm, avgIn, avgOut, d[k], z[k]))
      else Real(z[k]))
  }

  /** The discrepancy: when no node lies within the radius (a small crater
      whose centre falls between grid nodes), np.average of the empty inside
      slice is NaN and every node of the field becomes NaN. */
  lemma EmptyBowlPoisonsField(maths: Maths, s: Shape, dm: real, z: seq<real>, d: seq<real>, noise: real)
    requires 0.0 < dm && s.h2 != 0.0 && |d| == |z|
    requires forall k :: 0 <= k < |d| ==> dm / 2.0 < d[k]
    ensures forall k :: 0 <= k < |z| ==> RimFieldAsWritten(maths, s, dm, z, d, noise)[k].NaN?
  {
    assert Average(Gather(z, d, dm / 2.0, true)).NaN?;
  }

  /** With finite averages the source's outside change is the finite one. */
  lemma OutsideAsWrittenFinite(maths: Maths, s: Shape, dm: real, avgIn: real, avgOut: real, di: real, zi: real)
    requires 0.0 < dm && s.h2 != 0.0
    ensures OutsideDeltaAsWritten(maths, s, dm, Real(avgIn), Real(avgOut), di, zi)
            == Real(OutsideDelta(maths, s, dm, avgIn, avgOut, di, zi))
  {
  }

  /** Outside the radius, with a finite inside average, the source's
      arithmetic agrees with `RimField` at node k. */
  lemma AsWrittenAgreesOutside(maths: Maths, s: Shape, dm: real, z: seq<real>, d: seq<real>, noise: real, k: nat)
    requires 0.0 < dm && s.h2 != 0.0 && |d| <= |z| && k < |d| && dm / 2.0 < d[k]
    requires Average(Gather(z, d, dm / 2.0, true)).Real?
    ensures RimFieldAsWritten(maths, s, dm, z, d, noise)[k] == Real(RimField(maths, s, dm, z, d, noise)[k])
  {
    var radius := dm / 2.0;
    var outside := Gather(z, d, radius, false);
    var avgIn := ReferenceLevel(Gather(z, d, radius, true));
    var avgOut := ReferenceLevel(outside);
    assert Picks(d[k], radius, false);
    assert Average(outside) == Real(avgOut);
    OutsideAsWrittenFinite(maths, s, dm, avgIn, avgOut, d[k], z[k]);
    assert RimFieldAsWritten(maths, s, dm, z, d, noise)[k]
        == Real(z[k]).Plus(OutsideDeltaAsWritten(maths, s, dm, Real(avgIn), Real(avgOut), d[k], z[k]));
    assert RimField(maths, s, dm, z, d, noise)[k] == z[k] + OutsideDelta(maths, s, dm, avgIn, avgOut, d[k], z[k]);
  }

  /** With a finite inside average the source's arithmetic agrees with
      `RimField` at node k. */
  lemma AsWrittenAgreesAt(maths: Maths, s: Shape, dm: real, z: seq<real>, d: seq<real>, noise: real, k: nat)
    requires 0.0 < dm && s.h2 != 0.0 && |d| <= |z| && k < |z|
    requires Average(Gather(z, d, dm / 2.0, true)).Real?
    ensures RimFieldAsWritten(maths, s, dm, z, d, noise)[k] == Real(RimField(maths, s, dm, z, d, noise)[k])
  {
    if k < |d| && dm / 2.0 < d[k] {
      AsWrittenAgreesOutside(maths, s, dm, z, d, noise, k);
    } else if k < |d| {
      assert RimFieldAsWritten(maths, s, dm, z, d, noise)[k] == Real(z[k] + InsideDelta(maths, s, dm, noise, d[k], z[k]));
      assert RimField(maths, s, dm, z, d, noise)[k] == z[k] + InsideDelta(maths, s, dm, noise, d[k], z[k]);
    } else {
      assert RimFieldAsWritten(maths, s, dm, z, d, noise)[k] == Real(z[k]);
    }
  }

  /** As soon as one node lies within the radius the source's arithmetic
      stays finite and agrees node for node with `RimField`. */
  lemma AsWrittenAgreesWithOccupiedBowl(maths: Maths, s: Shape, dm: real, z: seq<real>, d: seq<real>, noise: real, j: nat)
    requires 0.0 < dm && s.h2 != 0.0 && |d| <= |z|
    requires j < |d| && d[j] <= dm / 2.0
    ensures forall k :: 0 <= k < |z| ==>
              RimFieldAsWritten(maths, s, dm, z, d, noise)[k] == Real(RimField(maths, s, dm, z, d, noise)[k])
  {
    assert Picks(d[j], dm / 2.0, true);
    assert Average(Gather(z, d, dm / 2.0, true)).Real?;
    forall k | 0 <= k < |z|
      ensures RimFieldAsWritten(maths, s, dm, z, d, noise)[k] == Real(RimField(maths, s, dm, z, d, noise)[k])
    {
      AsWrittenAgreesAt(maths, s, dm, z, d, noise, k);
    }
  }
}

=== FILE: numerics.dfy ===
/** The floating-point numerics the crater code leans on.

    Non-integer powers, logarithms and numpy's piecewise-linear
    interpolation are not modelled; a `Maths` value carries them as plain
    functions, and a property that depends on them states the one fact it
    needs (`PowPositive`) as a precondition. Sums and averages over node
    sets are exact `real` arithmetic. */
module Numerics {

  /** The transcendental operations used by the source, left uninterpreted. */
  datatype Maths = Maths(
    pow: (real, real) -> real,                   // x ** y with a non-integer y
    log10: real -> real,                         // np.log10
    ln: real -> real,                            // np.log
    interp: (real, seq<real>, seq<real>) -> real // np.interp(x, xp, fp)
  )

  /** The one fact about `**` the model relies on: a positive base gives a
      positive power, whatever the exponent. */
  ghost predicate PowPositive(maths: Maths) {
    forall b: real, e: real :: 0.0 < b ==> 0.0 < maths.pow(b, e)
  }

  function Abs(x: real): (r: real)
    ensures 0.0 <= r && (r == x || r == -x)
  {
    if x < 0.0 then -x else x
  }

  /** `np.min([a, b])` */
  function Min(a: real, b: real): (r: real)
    ensures r <= a && r <= b && (r == a || r == b)
  {
    if b < a then b else a
  }

  function Sum(xs: seq<real>): real {
    if |xs| == 0 then 0.0 else xs[0] + Sum(xs[1..])
  }

  lemma {:induction false} SumSnoc(xs: seq<real>, x: real)
    ensures Sum(xs + [x]) == Sum(xs) + x
  {
    if |xs| == 0 {
      assert xs + [x] == [x];
    } else {
      assert (xs + [x])[1..] == xs[1..] + [x];
      SumSnoc(xs[1..], x);
    }
  }

  lemma {:induction false} SumPositive(xs: seq<real>)
    requires |xs| > 0
    requires forall k :: 0 <= k < |xs| ==> 0.0 < xs[k]
    ensures 0.0 < Sum(xs)
  {
    if |xs| > 1 {
      SumPositive(xs[1..]);
    }
  }

  /** A float that may be NaN: enough of IEEE 754 to follow a NaN through
      the additions and multiplications of the crater kernel. A NaN operand
      always gives a NaN result, even when multiplied by zero. */
  datatype Num = Real(v: real) | NaN {

    function Plus(o: Num): Num {
      if Real? && o.Real? then Real(v + o.v) else NaN
    }

    function Minus(o: Num): Num {
      if Real? && o.Real? then Real(v - o.v) else NaN
    }

    function Times(o: Num): Num {
      if Real? && o.Real? then Real(v * o.v) else NaN
    }
  }

  /** `np.average` of a slice: NaN when the slice is empty. */
  function Average(xs: seq<real>): (r: Num)
    ensures r.NaN? <==> |xs| == 0
  {
    if |xs| == 0 then NaN else Real(Sum(xs) / (|xs| as real))
  }
}

=== FILE: weights.dfy ===
/** Roulette-wheel choice of a crater diameter (`weights` in the source).

    Every integer diameter D in [minD, maxD) carries the weight
    Kx * D ** -delta with Kx = 1 and delta = 2, i.e. exactly 1/D^2. A
    uniform draw in [0, 1) scales the total weight, and the weights are
    subtracted one by one until the remainder drops below zero; the index
    reached is the answer. The draw comes in as the parameter `r`. */
module Weights {
  import opened Wrappers
  import opened Numerics

  /** Scaling coefficient of the population frequency. */
  const Kx: real := 1.0

  /** Kx * D ** -2.0; Python raises ZeroDivisionError for D == 0. */
  function Weight(diameter: int): (w: real)
    requires diameter != 0
    ensures 0.0 < w
  {
    SquarePositive(diameter);
    Kx / ((diameter * diameter) as real)
  }

  lemma SquarePositive(x: int)
    requires x != 0
    ensures 0 < x * x
  {
    if x < 0 {
      assert x * x == (-x) * (-x);
    }
  }

  /** True when the range [minD, maxD) contains the diameter 0. */
  predicate SpansZero(minD: int, maxD: int) {
    minD <= 0 < maxD
  }

  /** The weight list built by the first loop of the source. */
  function WeightList(minD: int, maxD: int): (w: seq<real>)
    requires !SpansZero(minD, maxD)
    ensures |w| == if minD < maxD then maxD - minD else 0
    ensures forall k :: 0 <= k < |w| ==> w[k] == Weight(minD + k)
    ensures forall k :: 0 <= k < |w| ==> 0.0 < w[k]
  {
    if maxD <= minD then []
    else seq(maxD - minD, k requires 0 <= k < maxD - minD => Weight(minD + k))
  }

  /** The weight accumulated up to and including index `i`. */
  function Cumulative(w: seq<real>, i: nat): real
    requires i < |w|
  {
    Sum(w[..i + 1])
  }

  /** `i` is the first index whose cumulative weight exceeds `target`. */
  predicate FirstAbove(w: seq<real>, target: real, i: nat) {
    && i < |w|
    && target < Cumulative(w, i)
    && forall j :: 0 <= j < i ==> Cumulative(w, j) <= target
  }

  /** The second loop of the source: subtract the weights from the scaled
      draw `target` (`rnd`) and stop at the first index where the remainder
      becomes negative. That index is exactly the first one whose
      cumulative weight exceeds `target`; when no such index exists the
      source falls off the end of the function and returns None. */
  method Select(w: seq<real>, target: real) returns (pick: Option<nat>)
    ensures pick.Some? ==> FirstAbove(w, target, pick.value)
    ensures pick.None? <==> forall j :: 0 <= j < |w| ==> Cumulative(w, j) <= target
  {
    var rnd := target;
    var i := 0;
    while i < |w|
      invariant 0 <= i <= |w|
      invariant rnd == target - Sum(w[..i])
      invariant forall j :: 0 <= j < i ==> Cumulative(w, j) <= target
    {
      assert w[..i + 1] == w[..i] + [w[i]];
      SumSnoc(w[..i], w[i]);
      rnd := rnd - w[i];
      if rnd < 0.0 {
        return Some(i);
      }
      i := i + 1;
    }
    return None;
  }

  lemma CumulativeOfLast(w: seq<real>)
    requires |w| > 0
    ensures Cumulative(w, |w| - 1) == Sum(w)
  {
    assert w[..|w|] == w;
  }

  /** A draw in [0, 1) scales a positive total below it, so the last
      cumulative weight already exceeds the scaled draw. */
  lemma LastExceeds(w: seq<real>, r: real)
    requires |w| > 0 && 0.0 < Sum(w) && 0.0 <= r < 1.0
    ensures r * Sum(w) < Cumulative(w, |w| - 1)
  {
    CumulativeOfLast(w);
    FractionBelow(r, Sum(w));
  }

  /** A fraction in [0, 1) of a positive total stays below the total. */
  lemma FractionBelow(r: real, total: real)
    requires 0.0 <= r < 1.0 && 0.0 < total
    ensures r * total < total
  {
    assert total - r * total == (1.0 - r) * total;
  }

  /** `weights(minD, maxD)` with the uniform draw `r` made explicit. */
  method WeightedIndex(minD: int, maxD: int, r: real) returns (res: Result<Option<nat>>)
    ensures SpansZero(minD, maxD) <==> res == Failure(ZeroDivision)
    ensures maxD <= minD ==> res == Success(None)
    ensures res.Success? && res.value.Some? ==>
              var i := res.value.value;
              var w := WeightList(minD, maxD);
              && i < maxD - minD
              && r * Sum(w) < Cumulative(w, i)
              && forall j :: 0 <= j < i ==> Cumulative(w, j) <= r * Sum(w)
    ensures minD < maxD && !SpansZero(minD, maxD) && 0.0 <= r < 1.0 ==> res.Success? && res.value.Some?
  {
    if SpansZero(minD, maxD) {
      return Failure(ZeroDivision);
    }
    var w := WeightList(minD, maxD);
    var target := r * Sum(w);
    var pick := Select(w, target);
    if minD < maxD && 0.0 <= r < 1.0 {
      // the whole wheel weighs more than the scaled draw, so the last
      // cumulative weight already exceeds it
      SumPositive(w);
      LastExceeds(w, r);
      assert target < Cumulative(w, |w| - 1);
      assert pick.Some?;
    }
    return Success(pick);
  }
}

=== FILE: wrappers.dfy ===
/** Failure-carrying datatypes shared by every module of the model.

    The Python code signals failure by raising; the model returns a
    `Result` whose `Failure` names the exception that would have escaped. */
module Wrappers {

  /** A value that may be absent (Python's `None`). */
  datatype Option<+T> = None | Some(value: T)

  /** The ways an operation of the model can fail. */
  datatype Fault =
    | ZeroDivision          // ZeroDivisionError from a float division or `0 ** -x`
    | IndexOutOfRange       // IndexError from numpy fancy indexing
    | NonPositiveDiameter   // a crater diameter that is zero or negative
    | DrawsExhausted        // the finite stream of random draws ran out before the loop stopped

  datatype Result<+T> = Success(value: T) | Failure(error: Fault)
}
